=== FILE: README.md ===
# coq-tools import resolution, modelled in Dafny

This project models the core of `import_util.py` from coq-tools. That is the part of the
bug minimizer that translates between Coq library names (`Foo.Bar.Baz`) and files
(`foo/Bar/Baz.v`). The translation goes through an ordered load path of
`(physical directory, logical prefix)` bindings. On top of that translation the core:

- rewrites a source file with fully qualified names, using the compiler's `.glob` cross-reference records;
- finds the direct imports of a library in two ways: the slow path reads the `.glob` file, the fast path reads the `Require`/`Load` statements;
- memoises those imports in two caches;
- computes the transitive closure of imports, listing dependencies before the libraries that import them.

The model has seven modules:

- `Seqs`: option type, first-match search, first-occurrence deduplication, flattening.
- `Lex`: code-point string order and `tuple(sorted(set(...)))`.
- `Text`: the parts of Python's `str` the core uses. These are `split`, `strip`, the whitespace collapsing of `re.sub('\s+', ' ', ...)` and prefix tests. The module also defines the reference notion of the words of a text.
- `Names`: `libname_with_dot`, `filename_of_lib_helper`, `lib_of_filename_helper` (as written and corrected) and `norm_libname`.
- `Globs`: `.glob` records, `get_constr_name`, `update_with_glob` and `absolutize_has_all_constants`.
- `Imports`: the fast and slow import lists, `get_imports` with its caches, and `clear_libimport_cache`.
- `Closure`: `merge_imports` and `run_recursively_get_imports`.

The outside world becomes parameters:

- An `isFile` predicate.
- The directory list the fallback walk visits, in walk order.
- The `.glob` text a library has once the compiler was asked to make it.
- The bodies that the import-statement regular expression captures from a `.v` file.
- For the closure, an abstract import graph with a rank that decreases along every import. Its existence is the acyclicity precondition.

Paths use `/`. They are assumed already normalised, except that the empty physical
directory stands for `.`, as `normpath` makes it.

The `'..' + os.sep` guard in `lib_of_filename_helper` (import_util.py:94) shows that paths
above the root were meant to be refused by a `.` binding. The code still accepts every
path, because such a path already starts with `.`. The model follows the code, and the
Findings list this with the other defects of that function. `norm_libname`
(`Names.NormLibname`) resolves with the function as written, as import_util.py:246 does,
and so do the import lists and caches built on it. `Names.NormLibnameCorrected` is the
same operation over the corrected resolution.

## Model

| member | source | states |
|---|---|---|
| `Names.LibnameWithDot` | import_util.py:55-59 | the prefix is empty exactly for the three spellings of the empty logical name; otherwise it is the logical name followed by one dot |
| `Names.FilenameOfLib` | import_util.py:68-80 | the first binding whose prefix the name starts with decides the path: rest of the name, dots to `/`, under the physical directory. With no claiming binding, the result is the naive file under the first walked directory holding it (no earlier walked directory holds it), or the naive path when none holds it |
| `Names.SingleBindingPath` | import_util.py:69-73 | with one binding that claims the name, the file is the one that binding assigns, and the walk is never consulted |
| `Names.EmptyPrefixClaimsAll` | import_util.py:69-73 | a binding with an empty logical name claims every library no earlier binding claims, so later bindings and the walk are never consulted |
| `Names.ClaimedOnlyOnce` | import_util.py:69-73 | in a table whose logical prefixes are not prefixes of one another, the path of a claimed name is the one its claiming binding assigns, whatever its position |
| `Names.StripExtension` | import_util.py:89-92 | only the first listed extension the name ends with is removed; with no match the name is unchanged; an empty extension empties the name, as Python's `[:-0]` does |
| `Names.LibOfFilename` | import_util.py:87-103 | as written: the first accepting binding's prefix goes before the whole extension-less path with `/` turned into dots; the dot warning is raised exactly when that path holds a dot |
| `Names.AsWrittenSingle` | import_util.py:93-95 | as written, a path accepted by a single binding is named with that binding's prefix followed by the whole path, slashes turned into dots |
| `Names.DotBindingAcceptsEveryPath` | import_util.py:93-95 | as written, a binding of `.` accepts every path, `../` ones included |
| `Names.AsWrittenKeepsPhysicalDir` | import_util.py:93-95 | as written, a file `p/rest.v` under the one binding `-R p L` is named `L.` followed by the whole path `p/rest` with slashes turned into dots, so the physical directory stays in the name (`foo/A.v` under `-R foo Foo` is `Foo.foo.A`) |
| `Names.AsWrittenRoundTripFails` | import_util.py:69-73 | for dot-free `p` and `rest` and a non-empty logical name, that as-written name resolves to `p/p/rest.v`, never back to `p/rest.v` |
| `Names.AsWrittenIgnoresBoundary` | import_util.py:94 | as written, a path `p` followed by text not starting with `/` (`foobar/A` against `foo`) is not inside directory `p`, yet it is given the prefix of the binding of `p` |
| `Names.AsWrittenAcceptsParentDir` | import_util.py:94 | as written, every path `../rest` lies above the root of a `.` binding and still gets that binding's prefix (`../A.v` under the default table is `Top....A`) |
| `Names.LibOfFilenameCorrected` | import_util.py:87-103 | corrected: the first binding whose directory holds the file, with a `/` boundary and never above the root for `.`, gives the prefix; the path relative to that directory gives the rest |
| `Names.CorrectedSingleOutside` | import_util.py:93-96 | corrected, a path outside a single binding gets no prefix and is the path with slashes turned into dots |
| `Names.CorrectedRespectsBoundary` | import_util.py:94 | corrected, a path that only shares a text prefix with `p` is outside the binding of `p` and keeps the plain dotted name (`foobar/A.v` stays `foobar.A`) |
| `Names.CorrectedRejectsParentDir` | import_util.py:94 | corrected, a path `../rest` gets no prefix from a `.` binding |
| `Names.RoundTrip` | import_util.py:68-103 | for a consistent table and a dot-free file under some binding, the corrected name raises no dot warning and resolves back to exactly that file |
| `Names.BindingPathIsPlain` | import_util.py:70-73 | the path a binding assigns to a name it claims lies under that binding's directory and holds no dot when the directory has none |
| `Names.NormLibname` | import_util.py:242-248 | a name whose file does not exist is kept; a name whose file exists becomes what the as-written `lib_of_filename` makes of that file, which ends with the file's whole path, dots for slashes |
| `Names.NormLibnameIdempotent` | import_util.py:242-248 | with the corrected resolution, for a name a consistent table claims, normalising twice equals normalising once |
| `Names.NormLibnameMovesLibrary` | import_util.py:244-246 | as written, under `-R dir Logical` the name `Logical.rest` whose file `dir/rest.v` exists is renamed `Logical.dir.rest`, which is looked up as `dir/dir/rest.v`, not its own file |
| `Names.NormLibnameCorrected` | import_util.py:242-248 | with the corrected resolution, a name whose file does not exist is kept and one whose file exists becomes the corrected name of that file; for a name a binding of a consistent table with plain directories claims, the normal name resolves to the same file as the original |
| `Names.NormLibnameCorrectedKeepsName` | import_util.py:244-246 | with the corrected resolution, `Logical.rest` whose file `dir/rest.v` exists is already normal and is kept |
| `Text.Split` | import_util.py:239 | `str.split` on one character: at least one piece, no piece holds the separator, and joining the pieces with it gives the text back |
| `Text.Strip` | import_util.py:237 | the result is the input without its leading and trailing whitespace, and neither of its ends is whitespace |
| `Text.Collapse` | import_util.py:237 | after collapsing, the only whitespace left is the blank, and a leading whitespace run becomes one blank |
| `Text.CollapseRuns` | import_util.py:237 | after collapsing there are no two blanks in a row, the text is empty exactly when the input was, and it starts (ends) with a blank exactly when the input starts (ends) with whitespace: each maximal whitespace run becomes one blank |
| `Text.CollapseKeepsWords` | import_util.py:237 | collapsing whitespace runs keeps the words of the text |
| `Text.SplitBlanksIsWords` | import_util.py:239 | in a text whose only whitespace is the blank, the non-empty pieces of `split(' ')` are exactly its words |
| `Text.Tokens` | import_util.py:237-239 | the fast-path tokens (collapse, strip, split on blanks, drop empties) are exactly the words of the text |
| `Text.WordsOfJoin` | import_util.py:237 | joining two texts with a blank neither loses nor fuses a word |
| `Lex.SortedSet` | import_util.py:238-239 | `tuple(sorted(set(xs)))`: strictly increasing in code-point order, with the same elements as `xs` |
| `Lex.StrictlySortedUnique` | import_util.py:230-231 | two strictly sorted lists with the same elements are equal, so the sorted set is unique |
| `Seqs.Dedup` | import_util.py:252-256 | keeping first occurrences: no duplicates, the same elements, in the order of their first occurrence |
| `Globs.AbsolutizeHasAllConstants` | import_util.py:51-53 | true exactly when every kind of `ALL_ABSOLUTIZE_TUPLE` is among the requested kinds |
| `Globs.ImportKindsAreNotAll` | import_util.py:15-16 | absolutizing only imports does not cover every kind of constant; absolutizing all kinds does |
| `Globs.ParseLine` | import_util.py:128-130 | a line read as a record is well formed and is exactly that record's `R<start>:<end> <loc> <> <append> <kind>` line |
| `Globs.UpdateRecords` | import_util.py:128-130 | the records the loop reads are, each once, exactly the records of the text's lines with their kind stripped |
| `Globs.ParseLineComplete` | import_util.py:128-130 | every well-formed record is read back from its own line |
| `Globs.Records` | import_util.py:128-130 | the records of a `.glob` text are exactly those read from its lines |
| `Globs.SortDesc` | import_util.py:131 | the records are reordered by descending start offset, a permutation of the input with no duplicate |
| `Globs.SortDescUnique` | import_util.py:131 | disjoint records have exactly one descending order: two sorted, duplicate-free sequences of the same disjoint records are equal, so the hash-dependent order of Python's set cannot change the sorted result |
| `Globs.FirstWord` | import_util.py:121 | the first word is blank-free and starts the text, and it ends at the text's end or at a blank |
| `Globs.LastComponent` | import_util.py:122 | the last component is dot-free and ends the word, and it starts at the word's start or after a dot |
| `Globs.GetConstrName` | import_util.py:120-123 | the result is free of blanks and dots. It is the suffix of the first word that follows that word's last dot, or the whole first word when it has no dot |
| `Globs.ApplyOne` | import_util.py:132-143 | a record of an unrequested kind or of the library itself, or whose appended name is not the span's constructor name, changes nothing. Otherwise exactly the span is replaced by the qualified name and the text around it is kept |
| `Globs.MismatchedStep` | import_util.py:137-138 | a record whose span is a blank-free, dot-free name different from its appended name leaves the text unchanged |
| `Globs.QualifiedStep` | import_util.py:139-143 | a requested record of another library whose span is a blank-free, dot-free name equal to its appended name puts the qualified location, a dot and that name in place of the span |
| `Globs.UpdateWithGlob` | import_util.py:126-145 | when every record is of an unrequested kind or points into the library itself, the text is returned unchanged; when the records' spans are disjoint and inside the text, the result is the original text with each applicable span replaced, each judged on the original text |
| `Globs.ApplyAllFrame` | import_util.py:143 | text after every record's span is carried along untouched by the rewriting |
| `Globs.ApplyAllIsRebuild` | import_util.py:131-145 | applied from the highest span down, each record is judged and replaced on the original text of its span |
| `Globs.SortedDisjointIsLaid` | import_util.py:131 | disjoint spans sorted by descending start are each below the previous one, which is what keeps later offsets valid |
| `Globs.RebuildNothingApplies` | import_util.py:134-143 | when no record applies to its span, rewriting is the identity, so fully qualified text is a fixed point |
| `Globs.UpdateWithGlobOrderFree` | import_util.py:128-131 | the records are a set: two `.glob` texts with the same records, in any line order and with any repetition, rewrite a text alike when their spans are disjoint and inside it |
| `Globs.UpdateWithGlobOneLine` | import_util.py:126-145 | a `.glob` text of one well-formed record performs exactly one step of the loop |
| `Globs.MismatchedAppendIsSkipped` | import_util.py:137-138 | a record with appended name `Baz` over the text `Bar` is skipped, whatever the qualifying function |
| `Globs.AppendedNameIsQualified` | import_util.py:139-143 | `Bar x` with `Bar` resolved into `Top.M`, in a file of another library, becomes `Top.M.Bar x` |
| `Imports.FastImports` | import_util.py:235-239 | strictly sorted, and it holds exactly the normalised words of the import statement bodies |
| `Imports.WordsOfBodies` | import_util.py:237 | the words of the joined bodies are the words of each body in turn |
| `Imports.FastImportsPerStatement` | import_util.py:235-239 | a name is a fast import exactly when some single statement body has a word normalising to it |
| `Imports.SlowImports` | import_util.py:226-231 | strictly sorted, and it holds exactly the normalised libraries of the `.glob` records that have no appended name and kind `lib` |
| `Imports.SlowImportLine` | import_util.py:18 | a line counts for the slow path exactly when it is the line of a well-formed record with no appended name and kind `lib` |
| `Imports.Uncached` | import_util.py:223-240 | the uncached answer is strictly sorted |
| `Imports.GetImports` | import_util.py:218-240 | at most one cache gains one entry, under the normalised name. A slow-cache hit answers the slow path. A fast-cache hit answers when the fast path is asked for or no `.glob` exists |
| `Imports.GetImportsCoherent` | import_util.py:218-240 | from caches that hold only fresh answers, the answer is the uncached one and the caches stay that way |
| `Imports.GetImportsTwice` | import_util.py:224-235 | a second identical call is answered from the cache with the same list and changes nothing |
| `Imports.ClearLibimportCache` | import_util.py:61-65 | the library is in neither cache afterwards; every other entry is kept with its value |
| `Imports.ClearKeepsCoherent` | import_util.py:61-65 | clearing keeps caches coherent |
| `Imports.ClearThenGet` | import_util.py:61-65 | after clearing the library's normalised name (the key `get_imports` stores under), its imports are recomputed from scratch whatever stale entries were cached; clearing another spelling deletes only that raw key |
| `Imports.TwoImportsSorted` | import_util.py:237-239 | one statement body made of a name `w`, a whitespace run that may hold line breaks, and a name `v` smaller than `w` yields `v`, `w` in that order (`Foo.Bar`, line break, `Baz` gives `Baz`, `Foo.Bar`) |
| `Closure.Merged` | import_util.py:250-257 | the merge has no duplicate and holds exactly the normalised names of all lists |
| `Closure.MergeStep` | import_util.py:254-256 | appending a normalised name unless it is already there extends the first-occurrence deduplication of the names seen so far by one more name |
| `Closure.MergeImports` | import_util.py:250-257 | the loop's result is the first-occurrence deduplication of the normalised names of all lists, in list order |
| `Closure.RunRecursivelyGetImports` | import_util.py:267-278 | the closure is non-empty and has no duplicate; a library whose normalised name has no source file is its own closure, `[lib]` |
| `Closure.ClosureBounded` | import_util.py:267-278 | the closure contains the library, and every member is normalised and of no higher rank than the library |
| `Closure.ChildrenBelow` | import_util.py:275-277 | the closures of the direct imports never contain the library itself |
| `Closure.ClosureIsDedup` | import_util.py:277 | the closure is the first-occurrence deduplication of the imports' closures followed by the library |
| `Closure.ClosureEndsWithLibrary` | import_util.py:277 | the library is the last element of its own closure |
| `Closure.DepsFirstDedup` | import_util.py:252-256 | dropping later duplicates keeps every dependency before its importer |
| `Closure.ClosureDepsFirst` | import_util.py:267-278 | every import of a listed library with a source file is listed before it, so the closure is a valid compilation order |
| `Closure.ClosureContainsChildren` | import_util.py:275-277 | the closure of every direct import is contained in the library's closure |
| `Closure.DiamondClosure` | import_util.py:267-278 | for any `top` importing `a` and `b`, with `a` importing `b`, the closure of `top` is `b`, `a`, `top`: `b` once, before both of its importers |

## Left out

- Reading files, timestamps and the `file_mtimes`/`file_contents` caches (`get_file`, `get_raw_file`) are I/O. The statement bodies of a `.v` file are an input of the model.
- The rewriting `get_file` applies before the import statements are read is not modelled. The bodies are taken as given.
- `make_globs`, `get_makefile_contents_helper`, `get_all_v_files` and `coq_version.py` run external programs.
- In `run_recursively_get_imports`, the call to `make_globs` on the imports is left out. Its effect is visible only through the `.glob` texts the model takes as input.
- The regular expression engine is left out. `IMPORT_LINE_REG` is replaced by its captured bodies. `.glob` records are read line by line, so a field that a regular expression match would run across a line break is not modelled.
- `os.walk` is reduced to the ordered list of walked directories. `os.path.normpath`/`relpath` are reduced to "the empty directory is `.`", with paths assumed already normalised. `fix_path` is left out: the model uses `/` throughout.
- `@memoize`, `fill_kwargs`, `safe_kwargs`, the `recur` parameter, the memoised wrappers `internal_recursively_get_imports`/`recursively_get_imports`, and all logging and verbosity are left out. They do not change results.
- `is_local_import` and the `filename_of_lib`/`lib_of_filename` wrappers only fill defaults around the modelled helpers.
- Closure.ClosureBounded: proved only for a normalisation that is idempotent. `Names.NormLibnameIdempotent` shows that the corrected `norm_libname` is idempotent for names a consistent table claims; nothing is proved for the as-written one or for every table.
- Names.NormLibnameIdempotent: proved for the corrected resolution only. The as-written `norm_libname` can move a library to a name whose file is elsewhere (`Names.NormLibnameMovesLibrary`), so the same statement is not claimed for it.
- Closure.ClosureDepsFirst: proved only for an idempotent normalisation, for the same reason.
- Closure.ClosureEndsWithLibrary: proved only for an idempotent normalisation, for the same reason.
- Closure.ChildrenBelow: proved only for an idempotent normalisation, for the same reason.
- Closure.ClosureIsDedup: proved only for an idempotent normalisation and a library name that is already normal, for the same reason. `Closure.RunRecursivelyGetImports` normalises the name first, as import_util.py:269 does.
- Closure.ClosureContainsChildren: proved only for an idempotent normalisation, for the same reason.
- Closure.RunRecursivelyGetImports: requires an acyclic import graph with a rank. On a cyclic graph `run_recursively_get_imports` recurses without end.
- Globs.UpdateWithGlob: the rebuild result is stated only for disjoint spans inside the text. Overlapping spans make the result depend on the order of equal start offsets, which Python leaves to set iteration order.
- Offsets of `.glob` records count bytes of the file, but `get_raw_file` reads it in text mode as UTF-8 (import_util.py:113), which also turns CRLF into LF, and `update_with_glob` slices the decoded string by character (import_util.py:136-143). The model, like the program, indexes the decoded text: both put a span in the right place only when every character before it is a single byte and no line before it ends in CRLF. Byte offsets and the decoding are not modelled.
- Globs.SortDesc: records with equal start offsets are put in one fixed order. Python's order for them depends on hashing.
- Imports.GetImports: the file system is assumed not to change between calls, as the caches themselves assume. On the fast path a library with no `.v` file makes `get_file` raise (import_util.py:204-205 and 113); the model instead reads the import statements of the missing file as given, so that error path is not modelled.

## Findings

| source | as written | input that shows it | evidently intended | confidence | as-written member | corrected member |
|---|---|---|---|---|---|---|
| import_util.py:93-95 | the physical directory stays in the library name | `p/rest.v` with `-R p L` gives `L.p.rest`, which `filename_of_lib` maps to `p/p/rest.v` (`foo/A.v` with `-R foo Foo` gives `Foo.foo.A`, mapped to `foo/foo/A.v`) | `L.rest`, which maps back to `p/rest.v` | high, not executed | `Names.AsWrittenRoundTripFails` | `Names.RoundTrip` |
| import_util.py:94 | `filename.startswith(physical_name)` has no separator boundary | `foobar/A.v` with `-R foo Foo` gives `Foo.foobar.A` | `foobar/A.v` is not inside `foo` and stays `foobar.A` | high, not executed | `Names.AsWrittenIgnoresBoundary` | `Names.CorrectedRespectsBoundary` |
| import_util.py:94 | for physical `.`, `startswith('.')` already holds for `../A`, so the `..` guard never decides | `../A.v` with `(('.', 'Top'),)` gives `Top....A` | a file above the root gets no `Top` prefix | high, not executed | `Names.AsWrittenAcceptsParentDir` | `Names.CorrectedRejectsParentDir` |
| import_util.py:246 | `norm_libname` renames a library after its file with the as-written `lib_of_filename` | under `-R p L`, with `p/rest.v` present, `L.rest` becomes `L.p.rest`, whose file is `p/p/rest.v` (with `-R foo Foo`, `Foo.A` becomes `Foo.foo.A`, looked up as `foo/foo/A.v`) | `L.rest` is already normal and is kept | high, not executed | `Names.NormLibnameMovesLibrary` | `Names.NormLibnameCorrectedKeepsName` |

=== FILE: closure.dfy ===
/** The transitive imports of a library (`run_recursively_get_imports`) and the list
    merge they are assembled with (`merge_imports`). The import graph is abstract: a
    normalisation of names, which libraries have a source file, the direct imports of
    each, and a rank that strictly decreases along every import, which is what makes
    the recursion terminate. */
module Closure {
  import opened Seqs

  // ---------------------------------------------------------------------------
  // `merge_imports`

  /** The merge of several import lists: the normalised names in list order, each kept
      at its first occurrence. */
  function Merged(lists: seq<seq<string>>, norm: string -> string): (r: seq<string>)
    ensures NoDup(r)
    ensures forall x :: x in r <==> exists i :: i in Flatten(lists) && x == norm(i)
  {
    MapMembers(norm, Flatten(lists));
    Dedup(Map(norm, Flatten(lists)))
  }

  /** `merge_imports`: appends the normalised name of every import of every list unless
      it is already present. */
  method MergeImports(imports: seq<seq<string>>, norm: string -> string) returns (rtn: seq<string>)
    ensures rtn == Merged(imports, norm)
  {
    rtn := [];
    for k := 0 to |imports|
      invariant rtn == Dedup(Map(norm, Flatten(imports[..k])))
    {
      var list := imports[k];
      var done := Flatten(imports[..k]);
      assert done + list[..0] == done;
      for j := 0 to |list|
        invariant rtn == Dedup(Map(norm, done + list[..j]))
      {
        MergeStep(done + list[..j], list[j], rtn, norm);
        PrefixStep(done, list, j);
        if norm(list[j]) !in rtn {
          rtn := rtn + [norm(list[j])];
        }
      }
      FlattenPrefix(imports, k);
    }
    assert imports[..|imports|] == imports;
  }

  /** One step of the inner loop: appending a name unless present extends the merge
      by that name. */
  lemma MergeStep(before: seq<string>, x: string, rtn: seq<string>, norm: string -> string)
    requires rtn == Dedup(Map(norm, before))
    ensures (if norm(x) in rtn then rtn else rtn + [norm(x)]) == Dedup(Map(norm, before + [x]))
  {
    assert Map(norm, before + [x]) == Map(norm, before) + [norm(x)];
    DedupSnoc(Map(norm, before), norm(x));
  }

  lemma PrefixStep(done: seq<string>, list: seq<string>, j: nat)
    requires j < |list|
    ensures done + list[..j + 1] == done + list[..j] + [list[j]]
  {
    assert list[..j + 1] == list[..j] + [list[j]];
  }

  /** One more list flattened onto the prefix. */
  lemma FlattenPrefix(imports: seq<seq<string>>, k: nat)
    requires k < |imports|
    ensures Flatten(imports[..k]) + imports[k][..|imports[k]|] == Flatten(imports[..k + 1])
  {
    assert imports[k][..|imports[k]|] == imports[k];
    assert imports[..k + 1] == imports[..k] + [imports[k]];
    FlattenSnoc(imports[..k], imports[k]);
  }

  // ---------------------------------------------------------------------------
  // The import graph

  /** What the recursion learns from outside: `norm_libname`, whether a library has a
      `.v` file, its direct imports (`get_imports`), and a rank for termination. */
  datatype Graph = Graph(norm: string -> string, hasSource: string -> bool,
                         imports: string -> seq<string>, rank: string -> nat)

  /** Every import of a library with a source has a normalised name of lower rank: the
      import graph has no cycle. */
  ghost predicate Acyclic(g: Graph) {
    forall lib, i :: g.hasSource(lib) && i in g.imports(lib) ==> g.rank(g.norm(i)) < g.rank(lib)
  }

  /** `norm_libname` applied twice changes nothing more than applied once. */
  ghost predicate Idempotent(g: Graph) {
    forall x :: g.norm(g.norm(x)) == g.norm(x)
  }

  /** `run_recursively_get_imports`: a library without a source file is its own closure;
      otherwise the closures of its direct imports, followed by the library itself, are
      merged. */
  function RunRecursivelyGetImports(g: Graph, lib0: string): (r: seq<string>)
    requires Acyclic(g)
    ensures NoDup(r) && r != []
    ensures !g.hasSource(g.norm(lib0)) ==> r == [g.norm(lib0)]
    decreases g.rank(g.norm(lib0)), 1
  {
    var lib := g.norm(lib0);
    if g.hasSource(lib) then
      var lists := Children(g, lib) + [[lib]];
      assert lib in Flatten(lists) by {
        assert lib in lists[|lists| - 1];
      }
      Merged(lists, g.norm)
    else [lib]
  }

  /** The closures of the direct imports of a library with a source, in import order. */
  function Children(g: Graph, lib: string): (r: seq<seq<string>>)
    requires Acyclic(g) && g.hasSource(lib)
    ensures |r| == |g.imports(lib)|
    ensures forall k :: 0 <= k < |r| ==> r[k] == RunRecursivelyGetImports(g, g.imports(lib)[k])
    decreases g.rank(lib), 0
  {
    var imps := g.imports(lib);
    seq(|imps|, k requires 0 <= k < |imps| =>
      assert imps[k] in imps;
      RunRecursivelyGetImports(g, imps[k]))
  }

  // ---------------------------------------------------------------------------
  // Shape of the closure

  /** Dependencies come first: every import of a listed library with a source is listed
      before it. */
  ghost predicate DepsFirst(g: Graph, xs: seq<string>) {
    forall a, i :: 0 <= a < |xs| && g.hasSource(xs[a]) && i in g.imports(xs[a]) ==> g.norm(i) in xs[..a]
  }

  /** Every listed name is normalised and ranks no higher than `top`. */
  ghost predicate NormalBelow(g: Graph, xs: seq<string>, top: nat) {
    forall x :: x in xs ==> g.norm(x) == x && g.rank(x) <= top
  }

  /** The closure consists of normalised names no higher in rank than the library, and
      it contains the library. */
  lemma {:induction false} ClosureBounded(g: Graph, lib0: string)
    requires Acyclic(g) && Idempotent(g)
    ensures NormalBelow(g, RunRecursivelyGetImports(g, lib0), g.rank(g.norm(lib0)))
    ensures g.norm(lib0) in RunRecursivelyGetImports(g, lib0)
    decreases g.rank(g.norm(lib0)), 1
  {
    var lib := g.norm(lib0);
    var r := RunRecursivelyGetImports(g, lib0);
    if g.hasSource(lib) {
      var kids := Children(g, lib);
      ChildrenBelow(g, lib);
      FlattenSnoc(kids, [lib]);
      assert g.norm(lib) == lib;
    }
  }

  /** The flattened closures of the imports hold only names of lower rank than the
      library, so not the library itself. */
  lemma {:induction false} ChildrenBelow(g: Graph, lib: string)
    requires Acyclic(g) && Idempotent(g) && g.hasSource(lib)
    ensures forall x :: x in Flatten(Children(g, lib)) ==> g.norm(x) == x && g.rank(x) < g.rank(lib)
    ensures lib !in Flatten(Children(g, lib))
    decreases g.rank(lib), 0
  {
    var kids := Children(g, lib);
    forall x | x in Flatten(kids) ensures g.norm(x) == x && g.rank(x) < g.rank(lib) {
      var k :| 0 <= k < |kids| && x in kids[k];
      var child := g.imports(lib)[k];
      assert child in g.imports(lib);
      ClosureBounded(g, child);
    }
  }

  /** The merge of normalised names is their first-occurrence deduplication. */
  lemma MergedNormal(lists: seq<seq<string>>, norm: string -> string)
    requires forall x :: x in Flatten(lists) ==> norm(x) == x
    ensures Merged(lists, norm) == Dedup(Flatten(lists))
  {
    var f := Flatten(lists);
    assert Map(norm, f) == f by {
      forall k | 0 <= k < |f| ensures Map(norm, f)[k] == f[k] {
        assert f[k] in f;
      }
    }
  }

  /** The flattened closures followed by the library itself. */
  lemma ClosureIsDedup(g: Graph, lib: string)
    requires Acyclic(g) && Idempotent(g) && g.hasSource(lib) && g.norm(lib) == lib
    ensures RunRecursivelyGetImports(g, lib) == Dedup(Flatten(Children(g, lib)) + [lib])
  {
    var kids := Children(g, lib);
    ChildrenBelow(g, lib);
    FlattenSnoc(kids, [lib]);
    MergedNormal(kids + [[lib]], g.norm);
  }

  /** The library comes last in its own closure. */
  lemma ClosureEndsWithLibrary(g: Graph, lib0: string)
    requires Acyclic(g) && Idempotent(g)
    ensures var r := RunRecursivelyGetImports(g, lib0); r[|r| - 1] == g.norm(lib0)
  {
    var lib := g.norm(lib0);
    if g.hasSource(lib) {
      var f := Flatten(Children(g, lib));
      ChildrenBelow(g, lib);
      ClosureIsDedup(g, lib);
      DedupSnoc(f, lib);
      assert RunRecursivelyGetImports(g, lib0) == RunRecursivelyGetImports(g, lib);
    }
  }

  lemma IndexOfBefore(s: seq<string>, x: string, p: nat)
    requires p <= |s| && x in s[..p]
    ensures IndexOf(s, x) < p
  {
    var r := IndexOf(s, x);
    var m :| 0 <= m < p && s[m] == x;
    assert forall j :: 0 <= j < r ==> s[..r][j] == s[j];
  }

  /** Removing later duplicates keeps dependencies first. */
  lemma DepsFirstDedup(g: Graph, f: seq<string>)
    requires DepsFirst(g, f)
    ensures DepsFirst(g, Dedup(f))
  {
    var d := Dedup(f);
    forall a, i | 0 <= a < |d| && g.hasSource(d[a]) && i in g.imports(d[a]) ensures g.norm(i) in d[..a] {
      var x := d[a];
      assert x in d;
      var p := IndexOf(f, x);
      assert g.norm(i) in f[..p];
      var y := g.norm(i);
      assert y in f;
      IndexOfBefore(f, y, p);
      var b :| 0 <= b < |d| && d[b] == y;
      assert IndexOf(f, d[b]) < IndexOf(f, d[a]);
      assert b < a;
      assert d[..a][b] == y;
    }
  }

  lemma DepsFirstAppend(g: Graph, p: seq<string>, q: seq<string>)
    requires DepsFirst(g, p) && DepsFirst(g, q)
    ensures DepsFirst(g, p + q)
  {
    var s := p + q;
    forall a, i | 0 <= a < |s| && g.hasSource(s[a]) && i in g.imports(s[a]) ensures g.norm(i) in s[..a] {
      if a < |p| {
        assert s[a] == p[a];
        assert s[..a] == p[..a];
      } else {
        assert s[a] == q[a - |p|];
        assert g.norm(i) in q[..a - |p|];
        assert s[..a] == p + q[..a - |p|];
      }
    }
  }

  lemma {:induction false} DepsFirstFlatten(g: Graph, lists: seq<seq<string>>)
    requires forall k :: 0 <= k < |lists| ==> DepsFirst(g, lists[k])
    ensures DepsFirst(g, Flatten(lists))
    decreases |lists|
  {
    if lists != [] {
      DepsFirstFlatten(g, lists[1..]);
      DepsFirstAppend(g, lists[0], Flatten(lists[1..]));
    }
  }

  /** Dependencies come before their importers in the closure: it is an order in which
      the libraries can be compiled. */
  lemma {:induction false} ClosureDepsFirst(g: Graph, lib0: string)
    requires Acyclic(g) && Idempotent(g)
    ensures DepsFirst(g, RunRecursivelyGetImports(g, lib0))
    decreases g.rank(g.norm(lib0))
  {
    var lib := g.norm(lib0);
    if g.hasSource(lib) {
      var kids := Children(g, lib);
      forall k | 0 <= k < |kids| ensures DepsFirst(g, kids[k]) {
        var child := g.imports(lib)[k];
        assert child in g.imports(lib);
        ClosureDepsFirst(g, child);
      }
      DepsFirstFlatten(g, kids);
      var f := Flatten(kids);
      var s := f + [lib];
      forall a, i | 0 <= a < |s| && g.hasSource(s[a]) && i in g.imports(s[a]) ensures g.norm(i) in s[..a] {
        if a < |f| {
          assert s[a] == f[a] && s[..a] == f[..a];
        } else {
          assert s[a] == lib;
          var k :| 0 <= k < |g.imports(lib)| && g.imports(lib)[k] == i;
          ClosureBounded(g, i);
          assert g.norm(i) in kids[k];
          assert g.norm(i) in f;
          assert s[..a] == f;
        }
      }
      DepsFirstDedup(g, s);
      ClosureIsDedup(g, lib);
      assert RunRecursivelyGetImports(g, lib0) == RunRecursivelyGetImports(g, lib);
    }
  }

  /** The closure of every direct import is contained in the closure of the library. */
  lemma ClosureContainsChildren(g: Graph, lib0: string, i: string)
    requires Acyclic(g) && Idempotent(g)
    requires g.hasSource(g.norm(lib0)) && i in g.imports(g.norm(lib0))
    ensures forall x :: x in RunRecursivelyGetImports(g, i) ==> x in RunRecursivelyGetImports(g, lib0)
  {
    var lib := g.norm(lib0);
    var kids := Children(g, lib);
    var lists := kids + [[lib]];
    var k :| 0 <= k < |g.imports(lib)| && g.imports(lib)[k] == i;
    ClosureBounded(g, i);
    forall x | x in RunRecursivelyGetImports(g, i) ensures x in RunRecursivelyGetImports(g, lib0) {
      assert x in lists[k];
      assert x in Flatten(lists);
    }
  }

  // ---------------------------------------------------------------------------
  // Scenario

  lemma MergedTwo(a: string, b: string, norm: string -> string)
    requires norm(a) == a && norm(b) == b && a != b
    ensures Merged([[a], [b]], norm) == [a, b]
  {
    FlattenSnoc([[a]], [b]);
    FlattenSnoc([], [a]);
    assert [[a]] == [] + [[a]];
    assert [[a], [b]] == [[a]] + [[b]];
    assert Flatten([[a], [b]]) == [a, b];
    assert Map(norm, [a, b]) == [a, b];
    DedupPair(a, b);
  }

  /** `top` imports `a` and `b`, `a` imports `b`, `b` imports nothing. */
  ghost predicate Diamond(g: Graph, top: string, a: string, b: string) {
    && (forall x :: g.norm(x) == x)
    && Acyclic(g)
    && a != b && top != a && top != b
    && g.hasSource(top) && g.hasSource(a) && g.hasSource(b)
    && g.imports(top) == [a, b] && g.imports(a) == [b] && g.imports(b) == []
  }

  lemma DiamondLeaf(g: Graph, top: string, a: string, b: string)
    requires Diamond(g, top, a, b)
    ensures RunRecursivelyGetImports(g, b) == [b]
  {
    var kids := Children(g, b);
    assert kids == [];
    ClosureIsDedup(g, b);
    assert Flatten(kids) + [b] == [b];
    DedupSingle(b);
  }

  lemma DiamondMiddle(g: Graph, top: string, a: string, b: string)
    requires Diamond(g, top, a, b)
    ensures RunRecursivelyGetImports(g, a) == [b, a]
  {
    DiamondLeaf(g, top, a, b);
    var kids := Children(g, a);
    assert kids == [[b]];
    assert kids + [[a]] == [[b], [a]];
    MergedTwo(b, a, g.norm);
  }

  lemma DedupSingle(a: string)
    ensures Dedup([a]) == [a]
  {
    var e: seq<string> := [];
    DedupSnoc(e, a);
    assert e + [a] == [a];
  }

  lemma DedupPair(a: string, b: string)
    requires a != b
    ensures Dedup([a, b]) == [a, b]
  {
    var s := [a];
    DedupSingle(a);
    assert b !in Dedup(s);
    DedupSnoc(s, b);
    assert s + [b] == [a, b];
  }

  lemma DedupRepeat(a: string, b: string, t: string)
    requires a != b && t != a && t != b
    ensures Dedup([a, b, a] + [t]) == [a, b] + [t]
  {
    var p, s := [a, b], [a, b, a];
    DedupPair(a, b);
    assert a in Dedup(p);
    DedupSnoc(p, a);
    assert p + [a] == s;
    assert t !in Dedup(s);
    DedupSnoc(s, t);
  }

  lemma FlattenPairs(x: string, y: string)
    ensures Flatten([[x, y], [x]]) == [x, y, x]
  {
    FlattenSnoc([[x, y]], [x]);
    FlattenSnoc([], [x, y]);
    assert [[x, y]] == [] + [[x, y]];
    assert [[x, y], [x]] == [[x, y]] + [[x]];
  }

  lemma DiamondTopChildren(g: Graph, top: string, a: string, b: string)
    requires Diamond(g, top, a, b)
    ensures Children(g, top) == [[b, a], [b]]
  {
    DiamondLeaf(g, top, a, b);
    DiamondMiddle(g, top, a, b);
  }

  /** `top` imports `a` and `b`, and `a` imports `b`: the closure of `top` is `b`, `a`,
      `top`, so `b` is listed once, before both of its importers. */
  lemma DiamondClosure(g: Graph, top: string, a: string, b: string)
    requires Diamond(g, top, a, b)
    ensures RunRecursivelyGetImports(g, top) == [b, a, top]
  {
    assert Idempotent(g);
    DiamondTopChildren(g, top, a, b);
    ClosureIsDedup(g, top);
    DiamondMerge(Children(g, top), top, a, b);
  }

  lemma DiamondMerge(kids: seq<seq<string>>, top: string, a: string, b: string)
    requires kids == [[b, a], [b]] && a != b && top != a && top != b
    ensures Dedup(Flatten(kids) + [top]) == [b, a, top]
  {
    FlattenPairs(b, a);
    DedupRepeat(b, a, top);
    assert [b, a] + [top] == [b, a, top];
  }
}

=== FILE: globs.dfy ===
/** Glob-driven qualification (`update_with_glob`): the compiler's `.glob` file lists,
    for every reference in a source file, the span of the reference, the library it
    resolves to, an optional appended name and the kind of the referenced object.
    Records whose kind is to be absolutized replace their span with the fully qualified
    name, working from the highest start offset down. Offsets are indices into the
    decoded text, one per character, as Python's string slicing reads them. */
module Globs {
  import opened Seqs
  import opened Text

  /** The kinds absolutized when only imports are qualified. */
  const ImportAbsolutizeKinds: seq<string> := ["lib"]

  /** Every kind of constant; absolutizing all of them leaves no short name behind. */
  const AllAbsolutizeKinds: seq<string> :=
    ["lib", "proj", "rec", "ind", "constr", "def", "syndef", "class", "thm", "lem",
     "prf", "ax", "inst", "prfax", "coind", "scheme", "vardef"]

  function Covers(kinds: seq<string>, absolutize: seq<string>): (r: bool)
    ensures r <==> forall k :: k in kinds ==> k in absolutize
  {
    kinds == [] || (kinds[0] in absolutize && Covers(kinds[1..], absolutize))
  }

  /** `absolutize_has_all_constants`: the requested kinds include every kind of
      constant, so that only absolute names remain after rewriting. */
  function AbsolutizeHasAllConstants(absolutize: seq<string>): (r: bool)
    ensures r <==> forall k :: k in AllAbsolutizeKinds ==> k in absolutize
  {
    Covers(AllAbsolutizeKinds, absolutize)
  }

  /** Qualifying imports alone does not make every name absolute; qualifying every
      kind does. */
  lemma ImportKindsAreNotAll()
    ensures !AbsolutizeHasAllConstants(ImportAbsolutizeKinds)
    ensures AbsolutizeHasAllConstants(AllAbsolutizeKinds)
  {
    assert "proj" in AllAbsolutizeKinds;
    assert "proj" !in ImportAbsolutizeKinds;
  }

  // ---------------------------------------------------------------------------
  // Records and their line format

  predicate IsDigit(c: char) { '0' <= c <= '9' }

  predicate IsNumeral(s: string) {
    s != [] && forall i :: 0 <= i < |s| ==> IsDigit(s[i])
  }

  /** `int(s)` on a numeral. */
  function NumeralValue(s: string): nat {
    if s == [] then 0
    else 10 * NumeralValue(s[..|s| - 1]) + ((s[|s| - 1] as int - '0' as int) % 10)
  }

  /** One reference record. Offsets are kept as the numerals of the line, so two lines
      are the same record exactly when their fields are the same text. */
  datatype GlobRef = GlobRef(startDigits: string, endDigits: string, loc: string,
                             append: string, kind: string)
  {
    /** Index of the first character of the span in the decoded text. */
    function Start(): nat { NumeralValue(startDigits) }

    /** One past the last character of the span (the line records the last one). */
    function End(): nat { NumeralValue(endDigits) + 1 }
  }

  /** A field of the line: non-empty and free of blanks. */
  predicate IsField(s: string) { s != [] && ' ' !in s }

  /** The records a line can carry. */
  predicate WellFormed(g: GlobRef) {
    IsNumeral(g.startDigits) && IsNumeral(g.endDigits)
    && IsField(g.loc) && IsField(g.append) && IsField(g.kind)
  }

  /** The line `R<start>:<end> <loc> <> <append> <kind>` of a record. */
  function Render(g: GlobRef): string {
    "R" + g.startDigits + ":" + g.endDigits + " " + g.loc + " <> " + g.append + " " + g.kind
  }

  /** The record on one line of a `.glob` file, if the line has the shape
      `R<digits>:<digits> <loc> <> <append> <kind>`. */
  function ParseLine(line: string): (r: Option<GlobRef>)
    ensures r.Some? ==> WellFormed(r.value) && Render(r.value) == line
  {
    var fields := Split(line, ' ');
    if |fields| == 5 && fields[0] != [] && fields[0][0] == 'R' && fields[2] == "<>"
       && fields[1] != [] && fields[3] != [] && fields[4] != [] then
      var pos := Split(fields[0][1..], ':');
      if |pos| == 2 && IsNumeral(pos[0]) && IsNumeral(pos[1]) then
        var g := GlobRef(pos[0], pos[1], fields[1], fields[3], fields[4]);
        ParsedFields(g, fields, pos);
        Some(g)
      else None
    else None
  }

  lemma JoinFive(f: seq<string>, sep: char)
    requires |f| == 5
    ensures Join(f, sep) == f[0] + [sep] + f[1] + [sep] + f[2] + [sep] + f[3] + [sep] + f[4]
  {
    var t3 := f[3..];
    assert Join(t3, sep) == f[3] + [sep] + f[4] by {
      assert t3[1..] == [f[4]];
    }
    assert f[2..][1..] == t3;
    assert f[1..][1..] == f[2..];
    assert Join(f[2..], sep) == f[2] + [sep] + Join(t3, sep);
    assert Join(f[1..], sep) == f[1] + [sep] + Join(f[2..], sep);
  }

  lemma JoinTwo(f: seq<string>, sep: char)
    requires |f| == 2
    ensures Join(f, sep) == f[0] + [sep] + f[1]
  {
    assert f[1..] == [f[1]];
  }

  /** Fields that pass the checks of `ParseLine` form a well-formed record whose
      rendering is the line they were split from. */
  lemma ParsedFields(g: GlobRef, fields: seq<string>, pos: seq<string>)
    requires |fields| == 5 && forall i :: 0 <= i < 5 ==> ' ' !in fields[i]
    requires fields[0] != [] && fields[0][0] == 'R' && fields[2] == "<>"
    requires fields[1] != [] && fields[3] != [] && fields[4] != []
    requires pos == Split(fields[0][1..], ':') && |pos| == 2 && IsNumeral(pos[0]) && IsNumeral(pos[1])
    requires g == GlobRef(pos[0], pos[1], fields[1], fields[3], fields[4])
    ensures WellFormed(g)
    ensures Render(g) == Join(fields, ' ')
  {
    HeadField(fields[0], pos);
    JoinFive(fields, ' ');
    RenderOfFields(g, fields);
  }

  /** The position field `R<start>:<end>`, put back together. */
  lemma HeadField(head: string, pos: seq<string>)
    requires head != [] && head[0] == 'R' && pos == Split(head[1..], ':') && |pos| == 2
    ensures head == "R" + pos[0] + ":" + pos[1]
  {
    JoinTwo(pos, ':');
    assert head == [head[0]] + head[1..];
  }

  lemma RenderOfFields(g: GlobRef, f: seq<string>)
    requires |f| == 5 && f[0] == "R" + g.startDigits + ":" + g.endDigits
    requires f[1] == g.loc && f[2] == "<>" && f[3] == g.append && f[4] == g.kind
    ensures Render(g) == f[0] + [' '] + f[1] + [' '] + f[2] + [' '] + f[3] + [' '] + f[4]
  {
  }

  lemma NumeralHasNoSeparator(s: string, c: char)
    requires IsNumeral(s) && !IsDigit(c)
    ensures c !in s
  {
  }

  /** The five blank-separated fields of a rendered record. */
  lemma {:induction false} SplitRender(g: GlobRef)
    requires WellFormed(g)
    ensures Split(Render(g), ' ') == ["R" + g.startDigits + ":" + g.endDigits, g.loc, "<>", g.append, g.kind]
  {
    NumeralHasNoSeparator(g.startDigits, ' ');
    NumeralHasNoSeparator(g.endDigits, ' ');
    var head := "R" + g.startDigits + ":" + g.endDigits;
    assert ' ' !in head;
    var z3 := g.append + [' '] + g.kind;
    var z2 := "<>" + [' '] + z3;
    var z1 := g.loc + [' '] + z2;
    assert Render(g) == head + [' '] + z1;
    SplitNoSep(g.kind, ' ');
    SplitAfterPiece(g.append, ' ', g.kind);
    var s3 := [g.append] + [g.kind];
    SplitAfterPiece("<>", ' ', z3);
    var s2 := ["<>"] + s3;
    SplitAfterPiece(g.loc, ' ', z2);
    var s1 := [g.loc] + s2;
    SplitAfterPiece(head, ' ', z1);
    assert Split(Render(g), ' ') == [head] + s1;
    FiveList(head, g.loc, "<>", g.append, g.kind);
  }

  lemma FiveList(a: string, b: string, c: string, d: string, e: string)
    ensures [a] + ([b] + ([c] + ([d] + [e]))) == [a, b, c, d, e]
  {
  }

  /** The two numerals of the position field. */
  lemma SplitPosition(g: GlobRef)
    requires WellFormed(g)
    ensures Split(("R" + g.startDigits + ":" + g.endDigits)[1..], ':') == [g.startDigits, g.endDigits]
  {
    NumeralHasNoSeparator(g.startDigits, ':');
    NumeralHasNoSeparator(g.endDigits, ':');
    assert ("R" + g.startDigits + ":" + g.endDigits)[1..] == g.startDigits + [':'] + g.endDigits;
    SplitAfterPiece(g.startDigits, ':', g.endDigits);
    SplitNoSep(g.endDigits, ':');
  }

  /** Every well-formed record is read back from its rendering. */
  lemma ParseLineComplete(g: GlobRef)
    requires WellFormed(g)
    ensures ParseLine(Render(g)) == Some(g)
  {
    SplitRender(g);
    SplitPosition(g);
  }

  /** The records of a `.glob` text, one per matching line, in line order. */
  function Records(text: string): (r: seq<GlobRef>)
    ensures forall g :: g in r <==> exists line :: line in Split(text, '\n') && ParseLine(line) == Some(g)
  {
    Somes(Map(ParseLine, Split(text, '\n')))
  }

  function Somes<T(!new)>(s: seq<Option<T>>): (r: seq<T>)
    ensures forall x :: x in r <==> Some(x) in s
  {
    if s == [] then []
    else (if s[0].Some? then [s[0].value] else []) + Somes(s[1..])
  }

  // ---------------------------------------------------------------------------
  // Order of application

  predicate SortedDesc(gs: seq<GlobRef>) {
    forall i, j :: 0 <= i < j < |gs| ==> gs[i].Start() >= gs[j].Start()
  }

  function InsertDesc(g: GlobRef, gs: seq<GlobRef>): (r: seq<GlobRef>)
    requires SortedDesc(gs) && NoDup(gs) && g !in gs
    ensures SortedDesc(r) && NoDup(r) && |r| == |gs| + 1
    ensures forall x :: x in r <==> x == g || x in gs
  {
    if gs == [] then [g]
    else if g.Start() >= gs[0].Start() then
      ConsDesc(g, gs);
      [g] + gs
    else
      var t := InsertDesc(g, gs[1..]);
      ConsDesc(gs[0], t);
      [gs[0]] + t
  }

  /** A record that starts no earlier than any record of a sorted, duplicate-free
      sequence and is not in it can go in front. */
  lemma ConsDesc(x: GlobRef, t: seq<GlobRef>)
    requires SortedDesc(t) && NoDup(t)
    requires forall y :: y in t ==> x.Start() >= y.Start() && x != y
    ensures SortedDesc([x] + t) && NoDup([x] + t)
  {
    var r := [x] + t;
    forall i, j | 0 <= i < j < |r|
      ensures r[i].Start() >= r[j].Start() && r[i] != r[j]
    {
      assert r[j] == t[j - 1];
      if i > 0 {
        assert r[i] == t[i - 1];
      } else {
        assert t[j - 1] in t;
      }
    }
  }

  /** The records in descending order of start offset (a permutation: same elements,
      both duplicate-free). */
  function SortDesc(gs: seq<GlobRef>): (r: seq<GlobRef>)
    requires NoDup(gs)
    ensures SortedDesc(r) && NoDup(r) && |r| == |gs|
    ensures forall x :: x in r <==> x in gs
  {
    if gs == [] then [] else InsertDesc(gs[0], SortDesc(gs[1..]))
  }

  // ---------------------------------------------------------------------------
  // Rewriting

  /** What qualification is asked for: the kinds to absolutize, the library that owns
      the text, and the transformation applied to a record's library name. */
  datatype Qualify = Qualify(absolutize: seq<string>, libname: string, transform: string -> string)

  /** Python's `s[lo:hi]` for non-negative bounds: both clamped to the length. */
  function Slice(s: string, lo: nat, hi: nat): (r: string)
    ensures lo <= hi <= |s| ==> r == s[lo..hi]
  {
    var a := if lo <= |s| then lo else |s|;
    var b := if hi <= |s| then hi else |s|;
    if a <= b then s[a..b] else []
  }

  /** `code.split(' ')[0]`. */
  function FirstWord(code: string): (w: string)
    ensures ' ' !in w && StartsWith(code, w) && (|w| == |code| || code[|w|] == ' ')
  {
    SplitFirst(code, ' ');
    Split(code, ' ')[0]
  }

  /** `word.split('.')[-1]`. */
  function LastComponent(word: string): (r: string)
    ensures '.' !in r && EndsWith(word, r) && (|r| == |word| || word[|word| - |r| - 1] == '.')
  {
    SplitLast(word, '.');
    Last(Split(word, '.'))
  }

  /** `get_constr_name`: the last dot-separated component of the first blank-separated
      word of `code`. */
  function GetConstrName(code: string): (r: string)
    ensures ' ' !in r && '.' !in r
    ensures EndsWith(FirstWord(code), r)
    ensures |r| == |FirstWord(code)| || FirstWord(code)[|FirstWord(code)| - |r| - 1] == '.'
  {
    var w := FirstWord(code);
    var r := LastComponent(w);
    assert forall i :: 0 <= i < |r| ==> r[i] == w[|w| - |r| + i];
    r
  }

  /** Whether a record is applied to the text `span` it currently addresses: its kind
      is absolutized, it points outside the owning library, and its appended name, if
      any, is the name the span actually ends with. */
  predicate Applies(span: string, g: GlobRef, q: Qualify) {
    && g.kind in q.absolutize
    && g.loc != q.libname
    && (g.append == "<>" || GetConstrName(span) == g.append)
  }

  /** The qualified name written in place of the span. */
  function Replacement(g: GlobRef, q: Qualify): string {
    q.transform(g.loc) + (if g.append != "<>" then "." + g.append else "")
  }

  /** One step of the loop of `update_with_glob`. */
  function ApplyOne(c: string, g: GlobRef, q: Qualify): (r: string)
    ensures g.kind !in q.absolutize || g.loc == q.libname ==> r == c
    ensures g.Start() <= g.End() <= |c| && !Applies(c[g.Start()..g.End()], g, q) ==> r == c
    ensures g.Start() <= g.End() <= |c| && Applies(c[g.Start()..g.End()], g, q) ==>
              && |r| == |c| - (g.End() - g.Start()) + |Replacement(g, q)|
              && r[..g.Start()] == c[..g.Start()]
              && r[g.Start()..g.Start() + |Replacement(g, q)|] == Replacement(g, q)
              && r[g.Start() + |Replacement(g, q)|..] == c[g.End()..]
  {
    var s, e := g.Start(), g.End();
    if Applies(Slice(c, s, e), g, q) then
      SpliceShape(c, s, e, Replacement(g, q));
      Slice(c, 0, s) + Replacement(g, q) + Slice(c, e, |c|)
    else c
  }

  /** Replacing `c[s..e]` by `rep` keeps what is before and after the span. */
  lemma SpliceShape(c: string, s: nat, e: nat, rep: string)
    ensures s <= e <= |c| ==>
              var r := Slice(c, 0, s) + rep + Slice(c, e, |c|);
              && |r| == |c| - (e - s) + |rep|
              && r[..s] == c[..s]
              && r[s..s + |rep|] == rep
              && r[s + |rep|..] == c[e..]
  {
    if s <= e <= |c| {
      var r := c[..s] + rep + c[e..];
      assert r[..s] == c[..s];
      assert r[s..s + |rep|] == rep;
      assert r[s + |rep|..] == c[e..];
    }
  }

  /** The records applied one after the other, each to the text left by the previous. */
  function ApplyAll(c: string, gs: seq<GlobRef>, q: Qualify): string
    decreases |gs|
  {
    if gs == [] then c else ApplyAll(ApplyOne(c, gs[0], q), gs[1..], q)
  }

  /** The records which the loop reads from a `.glob` text: the matching lines with
      their kind stripped, each distinct record once. */
  function UpdateRecords(globs: string): (r: seq<GlobRef>)
    ensures NoDup(r)
    ensures forall g :: g in r <==> exists h :: h in Records(globs) && g == StripKind(h)
  {
    MapMembers(StripKind, Records(globs));
    Dedup(Map(StripKind, Records(globs)))
  }

  function StripKind(g: GlobRef): GlobRef { g.(kind := Strip(g.kind)) }

  /** `update_with_glob`. Records of an unrequested kind or of the library itself
      change nothing; when the spans are disjoint and inside the text, the result is
      the original text with every span judged and replaced on its original text. */
  function UpdateWithGlob(contents: string, globs: string, q: Qualify): (r: string)
    ensures (forall g :: g in Records(globs) ==> Strip(g.kind) !in q.absolutize || g.loc == q.libname)
            ==> r == contents
    ensures Disjoint(UpdateRecords(globs), |contents|) ==>
              && Laid(SortDesc(UpdateRecords(globs)), |contents|)
              && r == Rebuild(contents, SortDesc(UpdateRecords(globs)), q)
  {
    var sorted := SortDesc(UpdateRecords(globs));
    var r := ApplyAll(contents, sorted, q);
    assert (forall g :: g in Records(globs) ==> Strip(g.kind) !in q.absolutize || g.loc == q.libname)
           ==> r == contents by {
      if forall g :: g in Records(globs) ==> Strip(g.kind) !in q.absolutize || g.loc == q.libname {
        SkippedRecords(globs, q);
        ApplyAllSkipped(contents, sorted, q);
      }
    }
    assert Disjoint(UpdateRecords(globs), |contents|) ==>
             Laid(sorted, |contents|) && r == Rebuild(contents, sorted, q) by {
      if Disjoint(UpdateRecords(globs), |contents|) {
        SortedDisjointIsLaid(sorted, |contents|);
        ApplyAllIsRebuild(contents, sorted, q);
      }
    }
    r
  }

  /** When every record of the text is skipped, so is every record the loop reads. */
  lemma SkippedRecords(globs: string, q: Qualify)
    requires forall g :: g in Records(globs) ==> Strip(g.kind) !in q.absolutize || g.loc == q.libname
    ensures forall g :: g in SortDesc(UpdateRecords(globs)) ==> g.kind !in q.absolutize || g.loc == q.libname
  {
  }

  /** A record skipped for its kind or its library never changes anything, so text
      whose records are all of that sort comes back unchanged. */
  lemma {:induction false} ApplyAllSkipped(c: string, gs: seq<GlobRef>, q: Qualify)
    requires forall g :: g in gs ==> g.kind !in q.absolutize || g.loc == q.libname
    ensures ApplyAll(c, gs, q) == c
    decreases |gs|
  {
    if gs != [] {
      assert gs[0] in gs;
      ApplyAllSkipped(c, gs[1..], q);
    }
  }

  // ---------------------------------------------------------------------------
  // Offsets stay valid

  /** The spans lie in `[0, n)`, are non-empty, and each starts no earlier than the
      next one ends: the order in which descending application never disturbs a span
      still to come. */
  predicate Laid(gs: seq<GlobRef>, n: nat)
    decreases |gs|
  {
    gs == [] || (gs[0].Start() < gs[0].End() <= n && Laid(gs[1..], gs[0].Start()))
  }

  /** Spans that pairwise do not overlap and lie inside a text of length `n`. */
  predicate Disjoint(gs: seq<GlobRef>, n: nat) {
    && (forall g :: g in gs ==> g.Start() < g.End() <= n)
    && (forall g, h :: g in gs && h in gs && g != h ==> g.End() <= h.Start() || h.End() <= g.Start())
  }

  /** What a record contributes, judged on the span of the ORIGINAL text. */
  function Piece(span: string, g: GlobRef, q: Qualify): string {
    if Applies(span, g, q) then Replacement(g, q) else span
  }

  /** The rewritten text assembled from the original: the rewritten text before the
      highest span, that span's piece, and the untouched rest. */
  function Rebuild(c: string, gs: seq<GlobRef>, q: Qualify): string
    requires Laid(gs, |c|)
    decreases |gs|
  {
    if gs == [] then c
    else
      var s, e := gs[0].Start(), gs[0].End();
      Rebuild(c[..s], gs[1..], q) + Piece(c[s..e], gs[0], q) + c[e..]
  }

  /** Text after every span is carried along untouched. */
  lemma {:induction false} ApplyAllFrame(p: string, t: string, gs: seq<GlobRef>, q: Qualify)
    requires Laid(gs, |p|)
    ensures ApplyAll(p + t, gs, q) == ApplyAll(p, gs, q) + t
    decreases |gs|
  {
    if gs != [] {
      var g := gs[0];
      var s, e := g.Start(), g.End();
      var c := p + t;
      assert c[s..e] == p[s..e];
      var p1 := ApplyOne(p, g, q);
      assert ApplyOne(c, g, q) == p1 + t by {
        if Applies(p[s..e], g, q) {
          assert c[..s] == p[..s];
          assert c[e..] == p[e..] + t;
        }
      }
      assert |p1| >= s by {
        if Applies(p[s..e], g, q) {
          assert p1[..s] == p[..s];
        }
      }
      ApplyAllFrame(p1, t, gs[1..], q);
    }
  }

  /** Applying the records in descending order to the live text gives the same result
      as judging and replacing every span on the original text: each record still
      addresses the text it was recorded for. */
  lemma {:induction false} ApplyAllIsRebuild(c: string, gs: seq<GlobRef>, q: Qualify)
    requires Laid(gs, |c|)
    ensures ApplyAll(c, gs, q) == Rebuild(c, gs, q)
    decreases |gs|
  {
    if gs != [] {
      var g := gs[0];
      var s, e := g.Start(), g.End();
      ApplyAllStep(c, gs, q);
      RebuildStep(c, gs, q);
      ApplyAllIsRebuild(c[..s], gs[1..], q);
    }
  }

  /** The first record of a laid-out list rewrites only its own span; the rest of the
      list then works on the text before it. */
  lemma ApplyAllStep(c: string, gs: seq<GlobRef>, q: Qualify)
    requires gs != [] && Laid(gs, |c|)
    ensures Laid(gs[1..], gs[0].Start())
    ensures ApplyAll(c, gs, q)
         == ApplyAll(c[..gs[0].Start()], gs[1..], q)
            + (Piece(c[gs[0].Start()..gs[0].End()], gs[0], q) + c[gs[0].End()..])
  {
    var g := gs[0];
    var s, e := g.Start(), g.End();
    ApplyOneIsPiece(c, g, q);
    ApplyAllFrame(c[..s], Piece(c[s..e], g, q) + c[e..], gs[1..], q);
  }

  /** `Rebuild` regrouped as the rebuilt front followed by the rest. */
  lemma RebuildStep(c: string, gs: seq<GlobRef>, q: Qualify)
    requires gs != [] && Laid(gs, |c|)
    ensures Rebuild(c, gs, q)
         == Rebuild(c[..gs[0].Start()], gs[1..], q)
            + (Piece(c[gs[0].Start()..gs[0].End()], gs[0], q) + c[gs[0].End()..])
  {
    var s, e := gs[0].Start(), gs[0].End();
    var before := Rebuild(c[..s], gs[1..], q);
    var piece := Piece(c[s..e], gs[0], q);
    assert before + piece + c[e..] == before + (piece + c[e..]);
  }

  /** One step on an in-range span: the text before it, its piece, the text after. */
  lemma ApplyOneIsPiece(c: string, g: GlobRef, q: Qualify)
    requires g.Start() <= g.End() <= |c|
    ensures ApplyOne(c, g, q) == c[..g.Start()] + (Piece(c[g.Start()..g.End()], g, q) + c[g.End()..])
  {
    if Applies(c[g.Start()..g.End()], g, q) {
      ApplyOneApplied(c, g, q);
    } else {
      var s, e := g.Start(), g.End();
      assert c == c[..s] + (c[s..e] + c[e..]);
    }
  }

  lemma ApplyOneApplied(c: string, g: GlobRef, q: Qualify)
    requires g.Start() <= g.End() <= |c| && Applies(c[g.Start()..g.End()], g, q)
    ensures ApplyOne(c, g, q) == c[..g.Start()] + (Replacement(g, q) + c[g.End()..])
  {
    var s, e := g.Start(), g.End();
    var rep := Replacement(g, q);
    assert ApplyOne(c, g, q) == Slice(c, 0, s) + rep + Slice(c, e, |c|);
    assert c[..s] + rep + c[e..] == c[..s] + (rep + c[e..]);
  }

  /** Disjoint spans sorted by descending start are laid out as `Laid` requires. */
  lemma {:induction false} SortedDisjointIsLaid(gs: seq<GlobRef>, n: nat)
    requires SortedDesc(gs) && NoDup(gs) && Disjoint(gs, n)
    ensures Laid(gs, n)
    decreases |gs|
  {
    if gs != [] {
      var top := gs[0];
      assert top in gs;
      forall g | g in gs[1..] ensures g.End() <= top.Start() {
        var i :| 1 <= i < |gs| && gs[i] == g;
        assert g in gs && g != top;
      }
      SortedDisjointIsLaid(gs[1..], top.Start());
    }
  }

  /** Disjoint records have distinct start offsets, so there is only one way to sort
      them in descending order: two sorted, duplicate-free sequences of the same
      disjoint records are the same sequence. */
  lemma {:induction false} SortDescUnique(a: seq<GlobRef>, b: seq<GlobRef>, n: nat)
    requires SortedDesc(a) && NoDup(a) && SortedDesc(b) && NoDup(b)
    requires forall x :: x in a <==> x in b
    requires Disjoint(a, n)
    ensures a == b
    decreases |a|
  {
    if a != [] {
      assert a[0] in a;
      assert b != [];
      assert b[0] in b;
      HeadIsHighest(a, b[0]);
      HeadIsHighest(b, a[0]);
      assert a[0] == b[0];
      TailMembers(a);
      TailMembers(b);
      SortDescUnique(a[1..], b[1..], n);
      assert a == [a[0]] + a[1..];
      assert b == [b[0]] + b[1..];
    }
  }

  /** The head of a descending sequence starts no earlier than any of its records. */
  lemma HeadIsHighest(s: seq<GlobRef>, x: GlobRef)
    requires SortedDesc(s) && x in s
    ensures s[0].Start() >= x.Start()
  {
    var i :| 0 <= i < |s| && s[i] == x;
    if i > 0 {
      assert s[0].Start() >= s[i].Start();
    }
  }

  /** The tail of a duplicate-free sequence holds every record but the head. */
  lemma TailMembers(s: seq<GlobRef>)
    requires s != [] && NoDup(s)
    ensures forall x :: x in s[1..] <==> x in s && x != s[0]
  {
    forall x | x in s && x != s[0] ensures x in s[1..] {
      var i :| 0 <= i < |s| && s[i] == x;
      assert s[1..][i - 1] == x;
    }
    forall x | x in s[1..] ensures x != s[0] {
      var i :| 0 <= i < |s[1..]| && s[1..][i] == x;
      assert s[i + 1] == x;
    }
  }

  /** `update_with_glob` keeps the records in a set: two `.glob` texts holding the same
      records, in whatever line order and with whatever repetitions, rewrite the text
      alike when their spans are disjoint. */
  lemma UpdateWithGlobOrderFree(contents: string, g1: string, g2: string, q: Qualify)
    requires forall g :: g in Records(g1) <==> g in Records(g2)
    requires Disjoint(UpdateRecords(g1), |contents|)
    ensures UpdateWithGlob(contents, g1, q) == UpdateWithGlob(contents, g2, q)
  {
    var r1, r2 := UpdateRecords(g1), UpdateRecords(g2);
    assert forall x :: x in r1 <==> x in r2;
    var s1, s2 := SortDesc(r1), SortDesc(r2);
    assert Disjoint(s1, |contents|);
    SortDescUnique(s1, s2, |contents|);
    assert Disjoint(r2, |contents|);
  }

  /** When no record applies to the original text of its span, nothing changes: text
      that is already qualified is a fixed point. */
  lemma {:induction false} RebuildNothingApplies(c: string, gs: seq<GlobRef>, q: Qualify)
    requires Laid(gs, |c|)
    requires NoneApplies(c, gs, q)
    ensures Rebuild(c, gs, q) == c
    decreases |gs|
  {
    if gs != [] {
      var s, e := gs[0].Start(), gs[0].End();
      NoneAppliesBelow(c, gs, q);
      RebuildNothingApplies(c[..s], gs[1..], q);
      assert c == c[..s] + c[s..e] + c[e..];
    }
  }

  /** Every span lies in the text and no record applies to its span. */
  predicate NoneApplies(c: string, gs: seq<GlobRef>, q: Qualify) {
    forall i :: 0 <= i < |gs| ==>
      gs[i].Start() <= gs[i].End() <= |c| && !Applies(c[gs[i].Start()..gs[i].End()], gs[i], q)
  }

  /** The records after the first still apply to nothing in the text before its span. */
  lemma NoneAppliesBelow(c: string, gs: seq<GlobRef>, q: Qualify)
    requires gs != [] && Laid(gs, |c|) && NoneApplies(c, gs, q)
    ensures gs[0].Start() <= |c| && NoneApplies(c[..gs[0].Start()], gs[1..], q)
  {
    var s := gs[0].Start();
    forall i | 0 <= i < |gs[1..]|
      ensures gs[1..][i].Start() <= gs[1..][i].End() <= s
      ensures !Applies(c[..s][gs[1..][i].Start()..gs[1..][i].End()], gs[1..][i], q)
    {
      var h := gs[i + 1];
      assert gs[1..][i] == h;
      LaidBelow(gs, |c|, i + 1);
      SliceOfPrefix(c, s, h.Start(), h.End());
    }
  }

  lemma SliceOfPrefix(c: string, s: nat, a: nat, b: nat)
    requires a <= b <= s <= |c|
    ensures c[..s][a..b] == c[a..b]
  {
  }

  /** In a laid-out sequence every later span ends before the first one starts. */
  lemma {:induction false} LaidBelow(gs: seq<GlobRef>, n: nat, i: nat)
    requires Laid(gs, n) && 0 < i < |gs|
    ensures gs[i].Start() < gs[i].End() <= gs[0].Start()
    decreases i
  {
    if i > 1 {
      LaidBelow(gs[1..], gs[0].Start(), i - 1);
    }
  }

  // ---------------------------------------------------------------------------
  // Scenarios

  lemma StripNoSpace(s: string)
    requires NoSpace(s)
    ensures Strip(s) == s
  {
    assert SkipSpaces(s) == s;
    assert DropTrailingSpaces(s) == s;
  }

  /** A `.glob` text consisting of one record's line holds that record alone. */
  lemma RecordsOfOneLine(g: GlobRef)
    requires WellFormed(g) && '\n' !in Render(g)
    ensures Records(Render(g)) == [g]
  {
    SplitNoSep(Render(g), '\n');
    ParseLineComplete(g);
    var m := Map(ParseLine, [Render(g)]);
    assert m == [Some(g)];
    assert Somes(m) == [g] by {
      assert m[1..] == [];
    }
  }

  /** The records read from one record's line, ready for the loop. */
  lemma UpdateRecordsOfOneLine(g: GlobRef)
    requires WellFormed(g) && '\n' !in Render(g) && NoSpace(g.kind)
    ensures UpdateRecords(Render(g)) == [g]
  {
    RecordsOfOneLine(g);
    StripNoSpace(g.kind);
    assert StripKind(g) == g;
    var m := Map(StripKind, [g]);
    assert m == [g];
    DedupSnoc([], g);
    assert [] + [g] == [g];
  }

  /** With one record, `update_with_glob` is one step of its loop. */
  lemma UpdateWithGlobOneLine(contents: string, g: GlobRef, q: Qualify)
    requires WellFormed(g) && '\n' !in Render(g) && NoSpace(g.kind)
    ensures UpdateWithGlob(contents, Render(g), q) == ApplyOne(contents, g, q)
  {
    UpdateRecordsOfOneLine(g);
    assert SortDesc([g]) == [g] by {
      assert [g][1..] == [];
    }
    ApplyAllOne(contents, g, q);
  }

  lemma ApplyAllOne(c: string, g: GlobRef, q: Qualify)
    ensures ApplyAll(c, [g], q) == ApplyOne(c, g, q)
  {
    assert [g][1..] == [];
  }

  /** The offsets of the scenarios' first word `0:2`. */
  lemma FirstThreeChars(g: GlobRef)
    requires g.startDigits == "0" && g.endDigits == "2"
    ensures g.Start() == 0 && g.End() == 3
  {
    assert NumeralValue("0") == 0;
    assert NumeralValue("2") == 2;
  }

  /** The record lines used by the scenarios below can be read. */
  lemma ScenarioLine(g: GlobRef)
    requires g.startDigits == "0" && g.endDigits == "2" && g.kind == "def"
    requires IsField(g.loc) && IsField(g.append) && '\n' !in g.loc + g.append
    ensures WellFormed(g) && '\n' !in Render(g) && NoSpace(g.kind)
  {
    assert IsNumeral("0") && IsNumeral("2");
    assert IsField("def");
  }

  /** A blank-free, dot-free word is its own constructor name. */
  lemma ConstrNameOfName(w: string)
    requires ' ' !in w && '.' !in w
    ensures GetConstrName(w) == w
  {
    SplitNoSep(w, ' ');
    SplitNoSep(w, '.');
  }

  /** The step of the loop for a record whose appended name is not the name its
      span ends with: the text is kept. */
  lemma MismatchedStep(c: string, g: GlobRef, q: Qualify, n: nat)
    requires g.Start() == 0 && g.End() == n <= |c|
    requires ' ' !in c[..n] && '.' !in c[..n] && g.append != "<>" && g.append != c[..n]
    ensures ApplyOne(c, g, q) == c
  {
    assert c[0..n] == c[..n];
    ConstrNameOfName(c[..n]);
  }

  /** A record whose appended name disagrees with the name its span ends with is
      skipped: `Bar` recorded with appended name `Baz` stays `Bar`. */
  lemma MismatchedAppendIsSkipped(contents: string, globs: string, transform: string -> string)
    requires contents == "Bar" && globs == "R0:2 Foo <> Baz def"
    ensures UpdateWithGlob(contents, globs, Qualify(["def"], "Top", transform)) == "Bar"
  {
    var g := GlobRef("0", "2", "Foo", "Baz", "def");
    var q := Qualify(["def"], "Top", transform);
    ScenarioRecord(globs, g);
    UpdateWithGlobOneLine(contents, g, q);
    BarWord(contents);
    MismatchedStep(contents, g, q, 3);
  }

  /** The scenarios' record lines, read. */
  lemma ScenarioRecord(globs: string, g: GlobRef)
    requires g.startDigits == "0" && g.endDigits == "2" && g.kind == "def"
    requires g.loc in ["Foo", "Top.M"] && g.append in ["Baz", "Bar"]
    requires globs == Render(g)
    ensures WellFormed(g) && '\n' !in globs && NoSpace(g.kind) && g.Start() == 0 && g.End() == 3
  {
    ScenarioLine(g);
    FirstThreeChars(g);
  }

  /** The scenarios' texts start with the word `Bar`. */
  lemma BarWord(c: string)
    requires c in ["Bar", "Bar x"]
    ensures |c| >= 3 && ' ' !in c[..3] && '.' !in c[..3] && c[..3] == "Bar"
  {
  }

  /** The step of the loop for a record that applies: the span, a blank-free and
      dot-free name equal to the appended name, becomes the qualified name. */
  lemma QualifiedStep(c: string, g: GlobRef, q: Qualify, n: nat)
    requires g.Start() == 0 && g.End() == n <= |c|
    requires ' ' !in c[..n] && '.' !in c[..n] && g.append == c[..n] && g.append != "<>"
    requires g.kind in q.absolutize && g.loc != q.libname
    ensures ApplyOne(c, g, q) == q.transform(g.loc) + "." + c[..n] + c[n..]
  {
    assert c[0..n] == c[..n];
    ConstrNameOfName(c[..n]);
    var rep := Replacement(g, q);
    var r := ApplyOne(c, g, q);
    assert r == r[0..|rep|] + r[|rep|..];
  }

  /** A reference with an appended name is replaced by the qualified name:
      `Bar x` with `Bar` resolved into `Top.M` becomes `Top.M.Bar x`. */
  lemma AppendedNameIsQualified(contents: string, globs: string)
    requires contents == "Bar x" && globs == "R0:2 Top.M <> Bar def"
    ensures UpdateWithGlob(contents, globs, Qualify(["def"], "Other", s => s)) == "Top.M.Bar x"
  {
    var g := GlobRef("0", "2", "Top.M", "Bar", "def");
    var q := Qualify(["def"], "Other", s => s);
    ScenarioRecord(globs, g);
    UpdateWithGlobOneLine(contents, g, q);
    BarWord(contents);
    QualifiedStep(contents, g, q, 3);
    assert q.transform(g.loc) == "Top.M";
    QualifiedText(contents);
  }

  lemma QualifiedText(c: string)
    requires c == "Bar x"
    ensures "Top.M" + "." + c[..3] + c[3..] == "Top.M.Bar x"
  {
    assert c[..3] + c[3..] == c;
  }
}

=== FILE: imports.dfy ===
/** The direct imports of one library (`get_imports`): from the compiler's `.glob` file
    when it can be made (the slow path), otherwise from the `Require`/`Load` statements
    of its `.v` file (the fast path), memoised in two caches that `clear_libimport_cache`
    empties for one library. */
module Imports {
  import opened Seqs
  import opened Text
  import opened Lex
  import opened Names
  import opened Globs

  // ---------------------------------------------------------------------------
  // Fast path: the import statements of the Coq source text

  /** The imports named by the bodies of the import statements (the text between the
      keyword and the terminating period of each statement): the normalised words of
      the bodies, each once, in increasing order. */
  function FastImports(bodies: seq<string>, norm: string -> string): (r: seq<string>)
    ensures StrictlySorted(r)
    ensures forall x :: x in r <==> exists w :: w in Words(Join(bodies, ' ')) && x == norm(w)
  {
    var tokens := Tokens(Join(bodies, ' '));
    MapMembers(norm, tokens);
    SortedSet(Map(norm, tokens))
  }

  /** The words of the joined bodies are the words of each body in turn: joining the
      statements with a blank neither loses nor fuses a name. */
  lemma {:induction false} WordsOfBodies(bodies: seq<string>)
    ensures Words(Join(bodies, ' ')) == Flatten(Map(Words, bodies))
    decreases |bodies|
  {
    if bodies == [] {
    } else if |bodies| == 1 {
      assert Map(Words, bodies)[1..] == [];
    } else {
      WordsOfJoin(bodies[0], Join(bodies[1..], ' '));
      WordsOfBodies(bodies[1..]);
      assert Map(Words, bodies)[1..] == Map(Words, bodies[1..]);
    }
  }

  /** A library imported by the `.v` file is in the fast list exactly when some statement
      body names it. */
  lemma FastImportsPerStatement(bodies: seq<string>, norm: string -> string, x: string)
    ensures x in FastImports(bodies, norm) <==>
              exists k, w :: 0 <= k < |bodies| && w in Words(bodies[k]) && x == norm(w)
  {
    WordsOfBodies(bodies);
    var ws := Map(Words, bodies);
    if x in FastImports(bodies, norm) {
      var w :| w in Words(Join(bodies, ' ')) && x == norm(w);
      var k :| 0 <= k < |ws| && w in ws[k];
      assert w in Words(bodies[k]);
    }
    if exists k, w :: 0 <= k < |bodies| && w in Words(bodies[k]) && x == norm(w) {
      var k, w :| 0 <= k < |bodies| && w in Words(bodies[k]) && x == norm(w);
      assert w in ws[k];
      assert w in Words(Join(bodies, ' '));
    }
  }

  // ---------------------------------------------------------------------------
  // Slow path: the library references of the `.glob` file

  /** A record of a required library: no appended name and kind exactly `lib`. */
  predicate IsLibImport(g: GlobRef) { g.append == "<>" && g.kind == "lib" }

  function Loc(g: GlobRef): string { g.loc }

  /** The imports read from a `.glob` file: the normalised libraries of its `lib`
      records, each once, in increasing order. */
  function SlowImports(globs: string, norm: string -> string): (r: seq<string>)
    ensures StrictlySorted(r)
    ensures forall x :: x in r <==> exists g :: g in Records(globs) && IsLibImport(g) && x == norm(g.loc)
  {
    var recs := Filter(IsLibImport, Records(globs));
    MapMembers(Loc, recs);
    MapMembers(norm, Map(Loc, recs));
    SortedSet(Map(norm, Map(Loc, recs)))
  }

  /** A `.glob` line read by the slow path is exactly a rendered record of a required
      library. */
  lemma SlowImportLine(line: string)
    ensures (ParseLine(line).Some? && IsLibImport(ParseLine(line).value)) <==>
              exists g :: WellFormed(g) && IsLibImport(g) && line == Render(g)
  {
    if exists g :: WellFormed(g) && IsLibImport(g) && line == Render(g) {
      var g :| WellFormed(g) && IsLibImport(g) && line == Render(g);
      ParseLineComplete(g);
    }
  }

  // ---------------------------------------------------------------------------
  // `get_imports` with its caches

  /** What `get_imports` learns from outside: the load path, the directories of the
      walk fallback, which files exist, the `.glob` file of a library after the
      compiler was asked to make it (`None` when none exists), and the import statement
      bodies of a `.v` file. */
  datatype Env = Env(libnames: seq<Binding>, walk: seq<string>, isFile: string -> bool,
                     globFile: string -> Option<string>, statements: string -> seq<string>)
  {
    function Norm(lib: string): string { NormLibname(lib, libnames, walk, isFile) }

    function GlobName(lib: string): string { FilenameOfLib(lib, libnames, ".glob", walk, isFile) }

    function VName(lib: string): string { FilenameOfLib(lib, libnames, ".v", walk, isFile) }

    /** The `.glob` file of a library, once the compiler was asked to make it. */
    function GlobFile(lib: string): Option<string> { globFile(GlobName(lib)) }

    function Fast(lib: string): seq<string> { FastImports(statements(VName(lib)), Norm) }

    function Slow(globs: string): seq<string> { SlowImports(globs, Norm) }

    /** The fresh slow-path answer for a normalised name, when its `.glob` file exists. */
    function SlowAnswer(n: string): Option<seq<string>> {
      match GlobFile(n)
      case Some(t) => Some(Slow(t))
      case None => None
    }
  }

  /** The two memo tables, keyed by normalised library name. */
  datatype Caches = Caches(fast: map<string, seq<string>>, slow: map<string, seq<string>>)

  datatype Lookup = Lookup(imports: seq<string>, caches: Caches)

  /** The uncached answer: the `.glob` file's imports when the slow path is asked for
      and the file exists, otherwise the import statements'. */
  function Uncached(lib: string, fast: bool, env: Env): (r: seq<string>)
    ensures StrictlySorted(r)
  {
    var g := env.GlobFile(env.Norm(lib));
    if !fast && g.Some? then env.Slow(g.value) else env.Fast(env.Norm(lib))
  }

  /** Every cached entry is what would be computed afresh. */
  ghost predicate Coherent(c: Caches, env: Env) {
    Agrees(c.fast, env.Fast) && AgreesSome(c.slow, env.SlowAnswer)
  }

  ghost predicate Agrees(m: map<string, seq<string>>, f: string -> seq<string>) {
    forall k :: k in m ==> m[k] == f(k)
  }

  ghost predicate AgreesSome(m: map<string, seq<string>>, f: string -> Option<seq<string>>) {
    forall k :: k in m ==> f(k) == Some(m[k])
  }

  /** `get_imports`: normalise the name; on the slow path answer from the slow cache or
      from the `.glob` file if it exists; otherwise answer from the fast cache or the
      import statements. A freshly computed answer is stored under the normalised
      name; nothing else in the caches changes. */
  function GetImports(lib: string, fast: bool, c: Caches, env: Env): (r: Lookup)
    ensures var n := env.Norm(lib);
            && (r.caches == c || r.caches == c.(fast := c.fast[n := r.imports])
                || r.caches == c.(slow := c.slow[n := r.imports]))
            && (!fast && n in c.slow ==> r == Lookup(c.slow[n], c))
            && (n in c.fast && (fast || (n !in c.slow && env.GlobFile(n).None?)) ==> r == Lookup(c.fast[n], c))
  {
    var n := env.Norm(lib);
    if !fast && n in c.slow then Lookup(c.slow[n], c)
    else if !fast && env.GlobFile(n).Some? then
      var l := env.Slow(env.GlobFile(n).value);
      Lookup(l, c.(slow := c.slow[n := l]))
    else if n in c.fast then Lookup(c.fast[n], c)
    else
      var l := env.Fast(n);
      Lookup(l, c.(fast := c.fast[n := l]))
  }

  /** A table that agrees with `f` on its keys still does after storing `f(n)` at `n`. */
  lemma StoreAgrees(m: map<string, seq<string>>, n: string, v: seq<string>, f: string -> seq<string>)
    requires Agrees(m, f) && v == f(n)
    ensures Agrees(m[n := v], f)
  {
  }

  lemma StoreAgreesSome(m: map<string, seq<string>>, n: string, v: seq<string>,
                        f: string -> Option<seq<string>>)
    requires AgreesSome(m, f) && f(n) == Some(v)
    ensures AgreesSome(m[n := v], f)
  {
  }

  /** The caches are transparent: from coherent caches the answer is the uncached one,
      and the caches stay coherent. */
  lemma GetImportsCoherent(lib: string, fast: bool, c: Caches, env: Env)
    requires Coherent(c, env)
    ensures Coherent(GetImports(lib, fast, c, env).caches, env)
    ensures GetImports(lib, fast, c, env).imports == Uncached(lib, fast, env)
  {
    var n := env.Norm(lib);
    if !fast && n in c.slow {
      assert env.SlowAnswer(n) == Some(c.slow[n]);
    } else if !fast && env.GlobFile(n).Some? {
      StoreAgreesSome(c.slow, n, env.Slow(env.GlobFile(n).value), env.SlowAnswer);
    } else if n in c.fast {
      assert c.fast[n] == env.Fast(n);
    } else {
      StoreAgrees(c.fast, n, env.Fast(n), env.Fast);
    }
  }

  /** `clear_libimport_cache`: forgets one library in both tables and keeps every other
      entry. */
  function ClearLibimportCache(lib: string, c: Caches): (r: Caches)
    ensures lib !in r.fast && lib !in r.slow
    ensures forall k :: k != lib ==> (k in r.fast <==> k in c.fast) && (k in r.slow <==> k in c.slow)
    ensures forall k :: k in r.fast ==> r.fast[k] == c.fast[k]
    ensures forall k :: k in r.slow ==> r.slow[k] == c.slow[k]
  {
    c.(fast := c.fast - {lib}, slow := c.slow - {lib})
  }

  /** Clearing keeps the caches coherent. */
  lemma ClearKeepsCoherent(lib: string, c: Caches, env: Env)
    requires Coherent(c, env)
    ensures Coherent(ClearLibimportCache(lib, c), env)
  {
  }

  /** After the entry under its normalised name is cleared, a library's imports are
      computed afresh, whatever stale entries the caches held before. Clearing only
      deletes the key it is given, so another spelling of the name would leave the
      normalised entry in place. */
  lemma ClearThenGet(lib: string, fast: bool, c: Caches, env: Env)
    ensures GetImports(lib, fast, ClearLibimportCache(env.Norm(lib), c), env).imports == Uncached(lib, fast, env)
  {
  }

  /** Asking twice gives the same answer, the second time from the cache. */
  lemma GetImportsTwice(lib: string, fast: bool, c: Caches, env: Env)
    ensures var first := GetImports(lib, fast, c, env);
            GetImports(lib, fast, first.caches, env) == Lookup(first.imports, first.caches)
  {
  }

  // ---------------------------------------------------------------------------
  // Scenario

  /** A word, a whitespace run (a line break and indentation, say) and another word
      make two words. */
  lemma WordsOfTwo(w: string, gap: string, v: string)
    requires w != [] && NoSpace(w) && v != [] && NoSpace(v) && gap != [] && AllSpace(gap)
    ensures Words(w + gap + v) == [w, v]
  {
    assert w + gap + v == w + (gap + v);
    WordsAfterWord(w, gap + v);
    WordsLeadingSpaces(gap, v);
    WordsAfterWord(v, []);
    assert v + [] == v;
  }

  lemma WordsOfTwoBodies(bodies: seq<string>, w: string, gap: string, v: string)
    requires bodies == [w + gap + v]
    requires w != [] && NoSpace(w) && v != [] && NoSpace(v) && gap != [] && AllSpace(gap)
    ensures Words(Join(bodies, ' ')) == [w, v]
  {
    assert Join(bodies, ' ') == bodies[0];
    WordsOfTwo(w, gap, v);
  }

  lemma IdentityImages(r: seq<string>, ws: seq<string>, norm: string -> string)
    requires forall x :: norm(x) == x
    requires forall x :: x in r <==> exists w :: w in ws && x == norm(w)
    ensures forall x :: x in r <==> x in ws
  {
    forall x ensures x in r <==> x in ws {
      assert norm(x) == x;
    }
  }

  lemma SortedPair(r: seq<string>, a: string, b: string)
    requires StrictlySorted(r) && Less(a, b)
    requires forall x :: x in r <==> x in [b, a]
    ensures r == [a, b]
  {
    assert forall x :: x in [b, a] <==> x in [a, b];
    StrictlySortedUnique(r, [a, b]);
  }

  /** A statement that names two libraries on separate lines, the second smaller
      than the first (`Require Import Foo.Bar` and, on the next line, `Baz.`), yields
      both, in increasing order. */
  lemma TwoImportsSorted(bodies: seq<string>, w: string, gap: string, v: string, norm: string -> string)
    requires bodies == [w + gap + v]
    requires w != [] && NoSpace(w) && v != [] && NoSpace(v) && gap != [] && AllSpace(gap)
    requires Less(v, w)
    requires forall x :: norm(x) == x
    ensures FastImports(bodies, norm) == [v, w]
  {
    var r := FastImports(bodies, norm);
    var ws := Words(Join(bodies, ' '));
    WordsOfTwoBodies(bodies, w, gap, v);
    IdentityImages(r, ws, norm);
    assert forall x :: x in r <==> x in [w, v];
    SortedPair(r, v, w);
  }
}

=== FILE: lex.dfy ===
/** Lexicographic order on strings by code point (the order Python's `sorted` uses on
    `str`) and `SortedSet`, the model of `tuple(sorted(set(xs)))`. */
module Lex {

  predicate Less(a: string, b: string)
    decreases |a|
  {
    if a == [] then b != []
    else if b == [] then false
    else if a[0] != b[0] then a[0] < b[0]
    else Less(a[1..], b[1..])
  }

  lemma {:induction false} LessIrreflexive(a: string)
    ensures !Less(a, a)
    decreases |a|
  {
    if a != [] {
      LessIrreflexive(a[1..]);
    }
  }

  lemma {:induction false} LessTransitive(a: string, b: string, c: string)
    requires Less(a, b) && Less(b, c)
    ensures Less(a, c)
    decreases |a|
  {
    if a != [] && b != [] && c != [] && a[0] == b[0] && b[0] == c[0] {
      LessTransitive(a[1..], b[1..], c[1..]);
    }
  }

  lemma {:induction false} LessTotal(a: string, b: string)
    requires a != b
    ensures Less(a, b) || Less(b, a)
    decreases |a|
  {
    if a != [] && b != [] && a[0] == b[0] {
      assert a[1..] != b[1..] by {
        assert a == [a[0]] + a[1..] && b == [b[0]] + b[1..];
      }
      LessTotal(a[1..], b[1..]);
    }
  }

  lemma LessAsymmetric(a: string, b: string)
    requires Less(a, b)
    ensures !Less(b, a)
  {
    if Less(b, a) {
      LessTransitive(a, b, a);
      LessIrreflexive(a);
    }
  }

  predicate StrictlySorted(s: seq<string>) {
    forall i, j :: 0 <= i < j < |s| ==> Less(s[i], s[j])
  }

  /** Inserts `x` into a strictly sorted sequence, keeping it strictly sorted and
      dropping `x` when it is already present. */
  function Insert(x: string, s: seq<string>): (r: seq<string>)
    requires StrictlySorted(s)
    ensures StrictlySorted(r)
    ensures forall y :: y in r <==> y == x || y in s
  {
    if s == [] then [x]
    else if x == s[0] then s
    else if Less(x, s[0]) then
      assert forall j :: 0 <= j < |s| ==> Less(x, s[j]) by {
        forall j | 0 < j < |s| ensures Less(x, s[j]) {
          LessTransitive(x, s[0], s[j]);
        }
      }
      [x] + s
    else
      LessTotal(x, s[0]);
      var t := Insert(x, s[1..]);
      assert forall j :: 0 <= j < |t| ==> Less(s[0], t[j]) by {
        forall j | 0 <= j < |t| ensures Less(s[0], t[j]) {
          assert t[j] in t;
        }
      }
      [s[0]] + t
  }

  /** `sorted(set(xs))`: the strictly increasing sequence of the distinct elements. */
  function SortedSet(xs: seq<string>): (r: seq<string>)
    ensures StrictlySorted(r)
    ensures forall y :: y in r <==> y in xs
  {
    if xs == [] then [] else Insert(xs[0], SortedSet(xs[1..]))
  }

  /** A strictly sorted sequence is determined by its elements: this is why
      `SortedSet` is the unique answer for `sorted(set(xs))`. */
  lemma {:induction false} StrictlySortedUnique(a: seq<string>, b: seq<string>)
    requires StrictlySorted(a) && StrictlySorted(b)
    requires forall y :: y in a <==> y in b
    ensures a == b
    decreases |a|
  {
    assert a != [] ==> a[0] in b;
    assert b != [] ==> b[0] in a;
    if a != [] && b != [] {
      if a[0] != b[0] {
        assert a[0] in b;
        assert b[0] in a;
        var i :| 0 <= i < |b| && b[i] == a[0];
        var j :| 0 <= j < |a| && a[j] == b[0];
        LessIrreflexive(a[0]);
        LessIrreflexive(b[0]);
        assert Less(b[0], a[0]);
        assert Less(a[0], b[0]);
        LessAsymmetric(a[0], b[0]);
        assert false;
      }
      forall y ensures y in a[1..] <==> y in b[1..] {
        if y in a[1..] {
          var i :| 1 <= i < |a| && a[i] == y;
          assert y != a[0] by { assert Less(a[0], a[i]); LessIrreflexive(y); }
          assert y in b;
        }
        if y in b[1..] {
          var i :| 1 <= i < |b| && b[i] == y;
          assert y != b[0] by { assert Less(b[0], b[i]); LessIrreflexive(y); }
          assert y in a;
        }
      }
      StrictlySortedUnique(a[1..], b[1..]);
    }
  }
}

=== FILE: names.dfy ===
/** The name resolver: translation between logical library names (`A.B.C`) and file
    paths (`dir/B/C.v`) through an ordered table of (physical directory, logical prefix)
    bindings, where the first matching binding wins. Paths use `/` and are assumed
    already normalised; the file system is reduced to an `exists` predicate and, for
    the directory walk of the fallback, the walk order. */
module Names {
  import opened Seqs
  import opened Text

  /** One `-R physical logical` binding. */
  datatype Binding = Binding(physical: string, logical: string)

  /** The spellings `libname_with_dot` accepts for an empty logical prefix. */
  predicate IsEmptyLogical(logical: string) {
    logical == "" || logical == "\"\"" || logical == "''"
  }

  /** The prefix a library name must start with to fall under `logical`. */
  function LibnameWithDot(logical: string): (r: string)
    ensures r == [] <==> IsEmptyLogical(logical)
    ensures r != [] ==> r[|r| - 1] == '.' && r[..|r| - 1] == logical
  {
    if IsEmptyLogical(logical) then "" else logical + "."
  }

  function DotsToSlashes(s: string): string { Replace(s, '.', '/') }

  function SlashesToDots(s: string): string { Replace(s, '/', '.') }

  /** `os.path.normpath` on a physical directory, for the one case that matters to the
      model: the empty directory means the current one. */
  function NormDir(p: string): string { if p == "" then "." else p }

  /** `os.path.join` followed by normalisation, for a relative `rel`. */
  function JoinPath(dir: string, rel: string): string {
    if NormDir(dir) == "." then rel
    else if EndsWith(dir, "/") then dir + rel
    else dir + "/" + rel
  }

  // ---------------------------------------------------------------------------
  // Library name to file name

  predicate ClaimsLib(lib: string, b: Binding) {
    StartsWith(lib, LibnameWithDot(b.logical))
  }

  /** The file a binding that claims `lib` assigns to it: the rest of the name after the
      logical prefix, dots turned into separators, under the physical directory. */
  function BindingPath(lib: string, b: Binding, ext: string): string
    requires ClaimsLib(lib, b)
  {
    JoinPath(b.physical, DotsToSlashes(lib[|LibnameWithDot(b.logical)|..])) + ext
  }

  /** `filename_of_lib_helper`: the first binding whose logical prefix the name starts
      with decides the path; with no such binding, the first directory of the walk
      holding the naively mapped file, and failing that the naive path itself. */
  function FilenameOfLib(lib: string, libnames: seq<Binding>, ext: string,
                         walk: seq<string>, isFile: string -> bool): (r: string)
    ensures forall k :: 0 <= k < |libnames| && ClaimsLib(lib, libnames[k])
              && (forall j :: 0 <= j < k ==> !ClaimsLib(lib, libnames[j]))
              ==> r == BindingPath(lib, libnames[k], ext)
    ensures (forall k :: 0 <= k < |libnames| ==> !ClaimsLib(lib, libnames[k])) ==>
              var naive := DotsToSlashes(lib) + ext;
              ((exists i :: 0 <= i < |walk| && isFile(JoinPath(walk[i], naive))
                  && (forall j :: 0 <= j < i ==> !isFile(JoinPath(walk[j], naive)))
                  && r == JoinPath(walk[i], naive))
               || (r == naive && forall d :: d in walk ==> !isFile(JoinPath(d, naive))))
  {
    match FirstIndex(libnames, b => ClaimsLib(lib, b))
    case Some(k) =>
      forall k' | 0 <= k' < |libnames| && ClaimsLib(lib, libnames[k'])
        && (forall j :: 0 <= j < k' ==> !ClaimsLib(lib, libnames[j]))
        ensures k' == k
      {
        FirstIndexIsFirst(libnames, b => ClaimsLib(lib, b), k');
      }
      BindingPath(lib, libnames[k], ext)
    case None =>
      var naive := DotsToSlashes(lib) + ext;
      match FirstIndex(walk, d => isFile(JoinPath(d, naive)))
      case Some(i) => JoinPath(walk[i], naive)
      case None =>
        assert forall d :: d in walk ==> !isFile(JoinPath(d, naive)) by {
          forall d | d in walk ensures !isFile(JoinPath(d, naive)) {
            var i :| 0 <= i < |walk| && walk[i] == d;
          }
        }
        naive
  }

  /** A binding with an empty logical prefix claims every library that no earlier
      binding claims, so nothing behind it is ever consulted. */
  lemma EmptyPrefixClaimsAll(lib: string, libnames: seq<Binding>, k: nat, ext: string,
                             walk: seq<string>, isFile: string -> bool)
    requires k < |libnames| && IsEmptyLogical(libnames[k].logical)
    ensures exists i :: 0 <= i <= k && ClaimsLib(lib, libnames[i])
              && FilenameOfLib(lib, libnames, ext, walk, isFile) == BindingPath(lib, libnames[i], ext)
  {
    match FirstIndex(libnames, b => ClaimsLib(lib, b))
    case Some(i) =>
      assert i <= k;
    case None =>
      assert ClaimsLib(lib, libnames[k]);
  }

  // ---------------------------------------------------------------------------
  // File name to library name, as `import_util.py` writes it

  /** `filename[:-len(ext)]` for the first extension the name ends with. Python's
      `[:-0]` makes an empty extension strip the whole name. */
  function StripExtension(filename: string, exts: seq<string>): (r: string)
    ensures (forall k :: 0 <= k < |exts| ==> !EndsWith(filename, exts[k])) ==> r == filename
    ensures forall k :: 0 <= k < |exts| && EndsWith(filename, exts[k])
              && (forall j :: 0 <= j < k ==> !EndsWith(filename, exts[j]))
              ==> (if exts[k] == [] then r == [] else filename == r + exts[k])
  {
    match FirstIndex(exts, e => EndsWith(filename, e))
    case None => filename
    case Some(k) =>
      forall k' | 0 <= k' < |exts| && EndsWith(filename, exts[k'])
        && (forall j :: 0 <= j < k' ==> !EndsWith(filename, exts[j]))
        ensures k' == k
      {
        FirstIndexIsFirst(exts, e => EndsWith(filename, e), k');
      }
      if exts[k] == [] then []
      else
        assert filename == filename[..|filename| - |exts[k]|] + exts[k];
        filename[..|filename| - |exts[k]|]
  }

  /** What `lib_of_filename` hands back: the library name, and whether it warns that
      a dot in the file name makes the conversion unreliable. */
  datatype Unresolved = Unresolved(lib: string, dotWarning: bool)

  /** The binding test of `lib_of_filename_helper`: a plain prefix test on the
      physical directory, plus acceptance of any path not starting with `../` when
      the directory is `.`. */
  predicate AcceptsAsWritten(stem: string, b: Binding) {
    var p := NormDir(b.physical);
    StartsWith(stem, p) || (p == "." && !StartsWith(stem, "../"))
  }

  /** `lib_of_filename`: strip the extension, then prefix the first accepting
      binding's logical name to the whole path with separators turned into dots. The
      physical directory is not removed from the path. */
  function LibOfFilename(filename: string, libnames: seq<Binding>, exts: seq<string>): (r: Unresolved)
    ensures r.dotWarning <==> '.' in StripExtension(filename, exts)
    ensures forall k :: 0 <= k < |libnames| && AcceptsAsWritten(StripExtension(filename, exts), libnames[k])
              && (forall j :: 0 <= j < k ==> !AcceptsAsWritten(StripExtension(filename, exts), libnames[j]))
              ==> r.lib == LibnameWithDot(libnames[k].logical) + SlashesToDots(StripExtension(filename, exts))
    ensures (forall k :: 0 <= k < |libnames| ==> !AcceptsAsWritten(StripExtension(filename, exts), libnames[k]))
              ==> r.lib == SlashesToDots(StripExtension(filename, exts))
    ensures EndsWith(r.lib, SlashesToDots(StripExtension(filename, exts)))
  {
    var stem := StripExtension(filename, exts);
    var lib :=
      match FirstIndex(libnames, b => AcceptsAsWritten(stem, b))
      case Some(k) =>
        forall k' | 0 <= k' < |libnames| && AcceptsAsWritten(stem, libnames[k'])
          && (forall j :: 0 <= j < k' ==> !AcceptsAsWritten(stem, libnames[j]))
          ensures k' == k
        {
          FirstIndexIsFirst(libnames, b => AcceptsAsWritten(stem, b), k');
        }
        var prefix := LibnameWithDot(libnames[k].logical);
        assert (prefix + SlashesToDots(stem))[|prefix|..] == SlashesToDots(stem);
        prefix + SlashesToDots(stem)
      case None =>
        assert SlashesToDots(stem)[0..] == SlashesToDots(stem);
        SlashesToDots(stem);
    Unresolved(lib, '.' in stem)
  }

  /** The `.` binding accepts every path, `../` ones included: a path starting with
      `../` already starts with `.`, so the guard against leaving the root never
      decides anything. */
  lemma DotBindingAcceptsEveryPath(stem: string, b: Binding)
    requires NormDir(b.physical) == "."
    ensures AcceptsAsWritten(stem, b)
  {
    if StartsWith(stem, "../") {
      assert stem[..1] == stem[..3][..1];
    }
  }

  /** `norm_libname`: a library with an existing file is renamed to what
      `lib_of_filename` makes of that file; any other name is kept as it is. */
  function NormLibname(lib: string, libnames: seq<Binding>, walk: seq<string>,
                       isFile: string -> bool): (r: string)
    ensures !isFile(FilenameOfLib(lib, libnames, ".v", walk, isFile)) ==> r == lib
    ensures isFile(FilenameOfLib(lib, libnames, ".v", walk, isFile)) ==>
              r == LibOfFilename(FilenameOfLib(lib, libnames, ".v", walk, isFile), libnames, [".v", ".glob"]).lib
    ensures isFile(FilenameOfLib(lib, libnames, ".v", walk, isFile)) ==>
              EndsWith(r, SlashesToDots(StripExtension(FilenameOfLib(lib, libnames, ".v", walk, isFile), [".v", ".glob"])))
  {
    var filename := FilenameOfLib(lib, libnames, ".v", walk, isFile);
    if isFile(filename) then LibOfFilename(filename, libnames, [".v", ".glob"]).lib else lib
  }

  /** `norm_libname` with the corrected `lib_of_filename`. For a name that a binding
      of a consistent table with plain directories claims, the normal name leads to
      the same file as the original. */
  function NormLibnameCorrected(lib: string, libnames: seq<Binding>, walk: seq<string>,
                                isFile: string -> bool): (r: string)
    ensures !isFile(FilenameOfLib(lib, libnames, ".v", walk, isFile)) ==> r == lib
    ensures isFile(FilenameOfLib(lib, libnames, ".v", walk, isFile)) ==>
              r == LibOfFilenameCorrected(FilenameOfLib(lib, libnames, ".v", walk, isFile), libnames, [".v", ".glob"]).lib
    ensures Consistent(libnames) && PlainDirs(libnames)
            && (exists k :: 0 <= k < |libnames| && ClaimsLib(lib, libnames[k])) ==>
              FilenameOfLib(r, libnames, ".v", walk, isFile) == FilenameOfLib(lib, libnames, ".v", walk, isFile)
  {
    var filename := FilenameOfLib(lib, libnames, ".v", walk, isFile);
    if isFile(filename) then
      var r := LibOfFilenameCorrected(filename, libnames, [".v", ".glob"]).lib;
      assert Consistent(libnames) && PlainDirs(libnames)
             && (exists k :: 0 <= k < |libnames| && ClaimsLib(lib, libnames[k])) ==>
               FilenameOfLib(r, libnames, ".v", walk, isFile) == filename by {
        if Consistent(libnames) && PlainDirs(libnames)
           && (exists k :: 0 <= k < |libnames| && ClaimsLib(lib, libnames[k])) {
          NormalFileIsSame(lib, libnames, walk, isFile);
        }
      }
      r
    else lib
  }

  /** The corrected name of a claimed library's file resolves back to that file. */
  lemma NormalFileIsSame(lib: string, libnames: seq<Binding>, walk: seq<string>, isFile: string -> bool)
    requires Consistent(libnames) && PlainDirs(libnames)
    requires exists k :: 0 <= k < |libnames| && ClaimsLib(lib, libnames[k])
    ensures var f := FilenameOfLib(lib, libnames, ".v", walk, isFile);
            FilenameOfLib(LibOfFilenameCorrected(f, libnames, [".v", ".glob"]).lib, libnames, ".v", walk, isFile) == f
  {
    var i := FirstIndex(libnames, b => ClaimsLib(lib, b)).value;
    var b := libnames[i];
    var stem := JoinPath(b.physical, DotsToSlashes(lib[|LibnameWithDot(b.logical)|..]));
    ClaimedOnlyOnce(lib, libnames, i, ".v", walk, isFile);
    BindingPathIsPlain(lib, b);
    RoundTrip(stem, ".v", libnames, [".v", ".glob"], walk, isFile);
  }

  /** Stripping the default extensions from a `.v` file leaves its stem. */
  lemma StripDefaultExtension(stem: string)
    ensures StripExtension(stem + ".v", [".v", ".glob"]) == stem
  {
    var f := stem + ".v";
    assert f[|f| - 2..] == ".v";
    var r := StripExtension(f, [".v", ".glob"]);
    assert f == r + ".v";
    assert r == f[..|f| - 2] == stem;
  }

  /** With a one-binding table that accepts the stem, the name is that binding's
      prefix followed by the whole stem. */
  lemma AsWrittenSingle(stem: string, b: Binding)
    requires AcceptsAsWritten(stem, b)
    ensures LibOfFilename(stem + ".v", [b], [".v", ".glob"]).lib == LibnameWithDot(b.logical) + SlashesToDots(stem)
  {
    StripDefaultExtension(stem);
  }

  /** A directory other than `.`, as a binding's physical part is usually spelled:
      non-empty and without a trailing separator. */
  predicate PlainDir(p: string) {
    p != "" && p != "." && !EndsWith(p, "/")
  }

  /** Under the `-R dir Logical` convention of coq-tools, the file `dir/rest.v` becomes
      `Logical.dir.rest`: the physical directory stays in the name (with `-R foo Foo`,
      `foo/A.v` becomes `Foo.foo.A`). */
  lemma AsWrittenKeepsPhysicalDir(p: string, rest: string, logical: string)
    requires PlainDir(p)
    ensures LibOfFilename(p + "/" + rest + ".v", [Binding(p, logical)], [".v", ".glob"]).lib
            == LibnameWithDot(logical) + SlashesToDots(p + "/" + rest)
  {
    var stem := p + "/" + rest;
    assert stem[..|p|] == p;
    AsWrittenSingle(stem, Binding(p, logical));
  }

  /** ... and that name resolves to `dir/dir/rest.v`, not back to `dir/rest.v` (with
      `-R foo Foo`, `Foo.foo.A` is looked up as `foo/foo/A.v`). */
  lemma AsWrittenRoundTripFails(p: string, rest: string, logical: string, walk: seq<string>,
                                isFile: string -> bool)
    requires PlainDir(p) && '.' !in p && '.' !in rest && !IsEmptyLogical(logical)
    ensures var f := p + "/" + rest + ".v";
            var lib := LibOfFilename(f, [Binding(p, logical)], [".v", ".glob"]).lib;
            && FilenameOfLib(lib, [Binding(p, logical)], ".v", walk, isFile) == p + "/" + (p + "/" + rest) + ".v"
            && FilenameOfLib(lib, [Binding(p, logical)], ".v", walk, isFile) != f
  {
    var stem := p + "/" + rest;
    AsWrittenKeepsPhysicalDir(p, rest, logical);
    NoDotInJoin(p, rest);
    BindingPathOfName(stem, Binding(p, logical));
    SingleBindingPath(LibnameWithDot(logical) + SlashesToDots(stem), Binding(p, logical), walk, isFile);
  }

  lemma NoDotInJoin(p: string, rest: string)
    requires '.' !in p && '.' !in rest
    ensures '.' !in p + "/" + rest
  {
    var stem := p + "/" + rest;
    assert forall m :: 0 <= m < |stem| ==> stem[m] == (if m < |p| then p[m] else if m == |p| then '/' else rest[m - |p| - 1]);
  }

  /** The name a binding gives a dot-free stem leads back, through the same binding, to
      that stem under the binding's directory. */
  lemma BindingPathOfName(stem: string, b: Binding)
    requires PlainDir(b.physical) && '.' !in stem && !IsEmptyLogical(b.logical)
    ensures ClaimsLib(LibnameWithDot(b.logical) + SlashesToDots(stem), b)
    ensures BindingPath(LibnameWithDot(b.logical) + SlashesToDots(stem), b, ".v") == b.physical + "/" + stem + ".v"
  {
    var pre := LibnameWithDot(b.logical);
    var lib := pre + SlashesToDots(stem);
    assert lib[..|pre|] == pre;
    assert lib[|pre|..] == SlashesToDots(stem);
    ReplaceInverse(stem, '/', '.');
  }

  /** With a one-binding table that claims the name, the file is the binding's. */
  lemma SingleBindingPath(lib: string, b: Binding, walk: seq<string>, isFile: string -> bool)
    requires ClaimsLib(lib, b)
    ensures FilenameOfLib(lib, [b], ".v", walk, isFile) == BindingPath(lib, b, ".v")
  {
  }

  /** The directory test has no separator boundary: a sibling whose name merely starts
      with the directory's, outside it, is still given the binding's prefix (with
      `-R foo Foo`, `foobar/A.v` is named `Foo.foobar.A`). */
  lemma AsWrittenIgnoresBoundary(p: string, q: string, logical: string)
    requires PlainDir(p) && q != [] && q[0] != '/'
    ensures !Under(p + q, Binding(p, logical))
    ensures LibOfFilename(p + q + ".v", [Binding(p, logical)], [".v", ".glob"]).lib
            == LibnameWithDot(logical) + SlashesToDots(p + q)
  {
    SiblingOfDir(p, q);
    AsWrittenSingle(p + q, Binding(p, logical));
  }

  lemma SiblingOfDir(p: string, q: string)
    requires q != [] && q[0] != '/'
    ensures StartsWith(p + q, p) && !StartsWith(p + q, p + "/")
  {
    var stem := p + q;
    assert stem[..|p|] == p;
    assert stem[|p|] == q[0];
    assert (p + "/")[|p|] == '/';
  }

  /** With the `.` binding (the default table is `(('.', 'Top'),)`) a file above the
      root is still given the binding's prefix (`../A.v` is named `Top....A`). */
  lemma AsWrittenAcceptsParentDir(rest: string, logical: string)
    ensures !Under("../" + rest, Binding(".", logical))
    ensures LibOfFilename("../" + rest + ".v", [Binding(".", logical)], [".v", ".glob"]).lib
            == LibnameWithDot(logical) + SlashesToDots("../" + rest)
  {
    var stem := "../" + rest;
    assert stem[..3] == "../";
    DotBindingAcceptsEveryPath(stem, Binding(".", logical));
    AsWrittenSingle(stem, Binding(".", logical));
  }

  // ---------------------------------------------------------------------------
  // File name to library name, corrected

  /** `stem` lies inside the physical directory: below it with a `/` boundary, or,
      for `.`, anywhere that does not climb out of the root. */
  predicate Under(stem: string, b: Binding) {
    var p := NormDir(b.physical);
    if p == "." then !StartsWith(stem, "../") && stem != ".."
    else StartsWith(stem, p + "/")
  }

  /** The path of `stem` relative to the physical directory of `b`. */
  function RelativeTo(stem: string, b: Binding): (r: string)
    requires Under(stem, b)
    ensures NormDir(b.physical) == "." ==> r == stem
    ensures NormDir(b.physical) != "." ==> stem == b.physical + "/" + r
  {
    if NormDir(b.physical) == "." then stem
    else
      assert stem == b.physical + "/" + stem[|b.physical| + 1..];
      stem[|b.physical| + 1..]
  }

  /** `lib_of_filename` as intended: the first binding whose directory holds the file
      supplies the logical prefix, and the file's path relative to that directory
      supplies the rest. */
  function LibOfFilenameCorrected(filename: string, libnames: seq<Binding>, exts: seq<string>): (r: Unresolved)
    ensures r.dotWarning <==> '.' in StripExtension(filename, exts)
    ensures forall k :: 0 <= k < |libnames| && Under(StripExtension(filename, exts), libnames[k])
              && (forall j :: 0 <= j < k ==> !Under(StripExtension(filename, exts), libnames[j]))
              ==> r.lib == LibnameWithDot(libnames[k].logical)
                           + SlashesToDots(RelativeTo(StripExtension(filename, exts), libnames[k]))
    ensures (forall k :: 0 <= k < |libnames| ==> !Under(StripExtension(filename, exts), libnames[k]))
              ==> r.lib == SlashesToDots(StripExtension(filename, exts))
  {
    var stem := StripExtension(filename, exts);
    var lib :=
      match FirstIndex(libnames, b => Under(stem, b))
      case Some(k) =>
        forall k' | 0 <= k' < |libnames| && Under(stem, libnames[k'])
          && (forall j :: 0 <= j < k' ==> !Under(stem, libnames[j]))
          ensures k' == k
        {
          FirstIndexIsFirst(libnames, b => Under(stem, b), k');
        }
        LibnameWithDot(libnames[k].logical) + SlashesToDots(RelativeTo(stem, libnames[k]))
      case None => SlashesToDots(stem);
    Unresolved(lib, '.' in stem)
  }

  /** With a one-binding table whose directory does not hold the stem, the name is
      the whole stem with separators turned into dots. */
  lemma CorrectedSingleOutside(stem: string, b: Binding)
    requires !Under(stem, b)
    ensures LibOfFilenameCorrected(stem + ".v", [b], [".v", ".glob"]).lib == SlashesToDots(stem)
  {
    StripDefaultExtension(stem);
  }

  /** Corrected, a sibling directory that merely starts with the directory's name is
      not inside it, and its files get no prefix (`foobar/A.v` stays `foobar.A`). */
  lemma CorrectedRespectsBoundary(p: string, q: string, logical: string)
    requires PlainDir(p) && q != [] && q[0] != '/'
    ensures LibOfFilenameCorrected(p + q + ".v", [Binding(p, logical)], [".v", ".glob"]).lib
            == SlashesToDots(p + q)
  {
    AsWrittenIgnoresBoundary(p, q, logical);
    CorrectedSingleOutside(p + q, Binding(p, logical));
  }

  /** Corrected, a file above the root gets no prefix from the `.` binding (`../A.v`
      is named `...A`). */
  lemma CorrectedRejectsParentDir(rest: string, logical: string)
    ensures LibOfFilenameCorrected("../" + rest + ".v", [Binding(".", logical)], [".v", ".glob"]).lib
            == SlashesToDots("../" + rest)
  {
    AsWrittenAcceptsParentDir(rest, logical);
    CorrectedSingleOutside("../" + rest, Binding(".", logical));
  }

  /** A table is consistent when its physical directories are normalised (no trailing
      separator) and no logical prefix is a prefix of another binding's. */
  predicate Consistent(libnames: seq<Binding>) {
    && (forall k :: 0 <= k < |libnames| ==> !EndsWith(libnames[k].physical, "/"))
    && (forall j, k :: 0 <= j < |libnames| && 0 <= k < |libnames| && j != k ==>
          !StartsWith(LibnameWithDot(libnames[k].logical), LibnameWithDot(libnames[j].logical)))
  }

  /** Two prefixes of one string are prefixes of each other one way or the other. */
  lemma PrefixesComparable(s: string, a: string, b: string)
    requires StartsWith(s, a) && StartsWith(s, b) && |a| <= |b|
    ensures StartsWith(b, a)
  {
    assert b[..|a|] == s[..|b|][..|a|];
  }

  lemma StripFirstExtension(stem: string, ext: string, exts: seq<string>)
    requires ext != [] && |exts| > 0 && exts[0] == ext
    ensures StripExtension(stem + ext, exts) == stem
  {
    var filename := stem + ext;
    assert EndsWith(filename, exts[0]) by {
      assert filename[|filename| - |ext|..] == ext;
    }
    var r := StripExtension(filename, exts);
    assert filename == r + ext;
    assert r == filename[..|stem|] == stem;
  }

  /** In a consistent table a library claimed by one binding is claimed by no other. */
  lemma ClaimedOnlyOnce(lib: string, libnames: seq<Binding>, i: nat, ext: string,
                        walk: seq<string>, isFile: string -> bool)
    requires Consistent(libnames)
    requires i < |libnames| && ClaimsLib(lib, libnames[i])
    ensures FilenameOfLib(lib, libnames, ext, walk, isFile) == BindingPath(lib, libnames[i], ext)
  {
    var prefix := LibnameWithDot(libnames[i].logical);
    forall j | 0 <= j < i ensures !ClaimsLib(lib, libnames[j]) {
      var pj := LibnameWithDot(libnames[j].logical);
      if StartsWith(lib, pj) {
        if |pj| <= |prefix| {
          PrefixesComparable(lib, pj, prefix);
        } else {
          PrefixesComparable(lib, prefix, pj);
        }
      }
    }
  }

  /** The path a binding assigns to the name it gives a dot-free file under it is
      that file. */
  lemma BindingPathOfRelative(stem: string, b: Binding, ext: string)
    requires Under(stem, b) && '.' !in stem && !EndsWith(b.physical, "/")
    ensures ClaimsLib(LibnameWithDot(b.logical) + SlashesToDots(RelativeTo(stem, b)), b)
    ensures BindingPath(LibnameWithDot(b.logical) + SlashesToDots(RelativeTo(stem, b)), b, ext)
            == stem + ext
  {
    var rel := RelativeTo(stem, b);
    var prefix := LibnameWithDot(b.logical);
    var lib := prefix + SlashesToDots(rel);
    assert lib[..|prefix|] == prefix;
    assert lib[|prefix|..] == SlashesToDots(rel);
    assert '.' !in rel by {
      if NormDir(b.physical) != "." {
        assert forall m :: 0 <= m < |rel| ==> rel[m] == stem[|b.physical| + 1 + m];
      }
    }
    ReplaceInverse(rel, '/', '.');
  }

  /** Resolving a file to its library name and back yields the file again, for every
      file under a bound directory whose path holds no dot, over a consistent table. */
  lemma RoundTrip(stem: string, ext: string, libnames: seq<Binding>, exts: seq<string>,
                  walk: seq<string>, isFile: string -> bool)
    requires Consistent(libnames)
    requires '.' !in stem
    requires ext != [] && |exts| > 0 && exts[0] == ext
    requires exists k :: 0 <= k < |libnames| && Under(stem, libnames[k])
    ensures !LibOfFilenameCorrected(stem + ext, libnames, exts).dotWarning
    ensures FilenameOfLib(LibOfFilenameCorrected(stem + ext, libnames, exts).lib, libnames, ext, walk, isFile)
            == stem + ext
  {
    StripFirstExtension(stem, ext, exts);
    var f := FirstIndex(libnames, b => Under(stem, b));
    assert f.Some?;
    var i := f.value;
    var b := libnames[i];
    var lib := LibnameWithDot(b.logical) + SlashesToDots(RelativeTo(stem, b));
    assert LibOfFilenameCorrected(stem + ext, libnames, exts).lib == lib;
    BindingPathOfRelative(stem, b, ext);
    ClaimedOnlyOnce(lib, libnames, i, ext, walk, isFile);
  }

  /** Physical directories are `.` or free of dots, so the paths the table assigns are
      dot-free. */
  predicate PlainDirs(libnames: seq<Binding>) {
    forall k :: 0 <= k < |libnames| ==> NormDir(libnames[k].physical) == "." || '.' !in libnames[k].physical
  }

  /** The path a binding assigns to a library it claims lies under that binding's
      directory and holds no dot. */
  lemma BindingPathIsPlain(lib: string, b: Binding)
    requires ClaimsLib(lib, b) && !EndsWith(b.physical, "/")
    requires NormDir(b.physical) == "." || '.' !in b.physical
    ensures var stem := JoinPath(b.physical, DotsToSlashes(lib[|LibnameWithDot(b.logical)|..]));
            '.' !in stem && Under(stem, b)
  {
    var x := DotsToSlashes(lib[|LibnameWithDot(b.logical)|..]);
    assert '.' !in x;
    var stem := JoinPath(b.physical, x);
    if NormDir(b.physical) == "." {
      assert stem == x;
      assert !StartsWith(stem, "../") by {
        assert |stem| >= 3 ==> stem[..3][0] == stem[0];
      }
    } else {
      assert stem == b.physical + "/" + x;
      assert StartsWith(stem, b.physical + "/");
    }
  }

  /** The file a one-binding table assigns to `Logical.rest` is `dir/rest.v`. */
  lemma SingleBindingFile(p: string, rest: string, logical: string, walk: seq<string>,
                          isFile: string -> bool)
    requires PlainDir(p) && '.' !in rest && !IsEmptyLogical(logical)
    ensures FilenameOfLib(LibnameWithDot(logical) + SlashesToDots(rest), [Binding(p, logical)], ".v", walk, isFile)
            == p + "/" + rest + ".v"
  {
    BindingPathOfName(rest, Binding(p, logical));
    SingleBindingPath(LibnameWithDot(logical) + SlashesToDots(rest), Binding(p, logical), walk, isFile);
  }

  /** As written, `norm_libname` moves a library away from its own file: under
      `-R dir Logical`, `Logical.rest` whose file `dir/rest.v` exists is renamed
      `Logical.dir.rest`, and that name is looked up as `dir/dir/rest.v` (with
      `-R foo Foo`, `Foo.A` becomes `Foo.foo.A`, looked up as `foo/foo/A.v`). */
  lemma NormLibnameMovesLibrary(p: string, rest: string, logical: string, walk: seq<string>,
                                isFile: string -> bool)
    requires PlainDir(p) && '.' !in p && '.' !in rest && !IsEmptyLogical(logical)
    requires isFile(p + "/" + rest + ".v")
    ensures var n := NormLibname(LibnameWithDot(logical) + SlashesToDots(rest), [Binding(p, logical)], walk, isFile);
            && n == LibnameWithDot(logical) + SlashesToDots(p + "/" + rest)
            && FilenameOfLib(n, [Binding(p, logical)], ".v", walk, isFile) == p + "/" + (p + "/" + rest) + ".v"
            && FilenameOfLib(n, [Binding(p, logical)], ".v", walk, isFile) != p + "/" + rest + ".v"
  {
    SingleBindingFile(p, rest, logical, walk, isFile);
    AsWrittenKeepsPhysicalDir(p, rest, logical);
    AsWrittenRoundTripFails(p, rest, logical, walk, isFile);
  }

  /** With the corrected resolution, a name whose file exists under its binding is
      already normal: `Logical.rest` with `dir/rest.v` present stays `Logical.rest`. */
  lemma NormLibnameCorrectedKeepsName(p: string, rest: string, logical: string, walk: seq<string>,
                                      isFile: string -> bool)
    requires PlainDir(p) && '.' !in rest && !IsEmptyLogical(logical)
    requires isFile(p + "/" + rest + ".v")
    ensures NormLibnameCorrected(LibnameWithDot(logical) + SlashesToDots(rest), [Binding(p, logical)], walk, isFile)
            == LibnameWithDot(logical) + SlashesToDots(rest)
  {
    var b := Binding(p, logical);
    var stem := p + "/" + rest;
    SingleBindingFile(p, rest, logical, walk, isFile);
    assert Under(stem, b) by {
      assert stem[..|p| + 1] == p + "/";
    }
    CorrectedSingleUnder(stem, b);
    assert RelativeTo(stem, b) == rest by {
      var r := RelativeTo(stem, b);
      assert p + "/" + r == p + "/" + rest;
      assert r == (p + "/" + r)[|p| + 1..];
    }
  }

  /** With a one-binding table whose directory holds the stem, the name is the
      binding's prefix followed by the path relative to the directory. */
  lemma CorrectedSingleUnder(stem: string, b: Binding)
    requires Under(stem, b)
    ensures LibOfFilenameCorrected(stem + ".v", [b], [".v", ".glob"]).lib
            == LibnameWithDot(b.logical) + SlashesToDots(RelativeTo(stem, b))
  {
    StripDefaultExtension(stem);
  }

  /** With the corrected resolution, normalising a name twice gives the same name as
      normalising it once, for a library some binding of a consistent table with plain
      directories claims. */
  lemma NormLibnameIdempotent(lib: string, libnames: seq<Binding>, walk: seq<string>,
                              isFile: string -> bool)
    requires Consistent(libnames) && PlainDirs(libnames)
    requires exists k :: 0 <= k < |libnames| && ClaimsLib(lib, libnames[k])
    ensures NormLibnameCorrected(NormLibnameCorrected(lib, libnames, walk, isFile), libnames, walk, isFile)
            == NormLibnameCorrected(lib, libnames, walk, isFile)
  {
    var f := FilenameOfLib(lib, libnames, ".v", walk, isFile);
    if isFile(f) {
      var i := FirstIndex(libnames, b => ClaimsLib(lib, b)).value;
      var b := libnames[i];
      var stem := JoinPath(b.physical, DotsToSlashes(lib[|LibnameWithDot(b.logical)|..]));
      ClaimedOnlyOnce(lib, libnames, i, ".v", walk, isFile);
      assert f == stem + ".v";
      BindingPathIsPlain(lib, b);
      RoundTrip(stem, ".v", libnames, [".v", ".glob"], walk, isFile);
    }
  }
}

=== FILE: seqs.dfy ===
/** Generic sequence helpers shared by the name resolver, the glob rewriter and the
    import-graph builder: an Option type, first-match search over an ordered table,
    duplicate-freedom, first-occurrence deduplication and flattening. */
module Seqs {

  datatype Option<+T> = None | Some(value: T)

  /** Index of the first element of `s` satisfying `p`; this is how every ordered
      table in the resolver is searched ("first match wins"). */
  function FirstIndex<T>(s: seq<T>, p: T -> bool): (r: Option<nat>)
    ensures r.Some? ==> r.value < |s| && p(s[r.value])
    ensures r.Some? ==> forall j :: 0 <= j < r.value ==> !p(s[j])
    ensures r.None? ==> forall j :: 0 <= j < |s| ==> !p(s[j])
  {
    if s == [] then None
    else if p(s[0]) then Some(0)
    else match FirstIndex(s[1..], p)
      case None => None
      case Some(k) => Some(k + 1)
  }

  /** Any index whose element satisfies `p` and has no satisfying element before it
      is the one FirstIndex finds. */
  lemma FirstIndexIsFirst<T>(s: seq<T>, p: T -> bool, k: nat)
    requires k < |s| && p(s[k])
    requires forall j :: 0 <= j < k ==> !p(s[j])
    ensures FirstIndex(s, p) == Some(k)
  {
  }

  predicate NoDup<T(==)>(s: seq<T>) {
    forall i, j :: 0 <= i < j < |s| ==> s[i] != s[j]
  }

  /** Index of the first occurrence of `x` in `s`. */
  function IndexOf<T(==)>(s: seq<T>, x: T): (r: nat)
    requires x in s
    ensures r < |s| && s[r] == x && x !in s[..r]
  {
    if s[0] == x then 0 else 1 + IndexOf(s[1..], x)
  }

  lemma IndexOfPrefix<T>(s: seq<T>, t: seq<T>, x: T)
    requires x in s
    ensures x in s + t && IndexOf(s + t, x) == IndexOf(s, x)
  {
    var k := IndexOf(s, x);
    var u := s + t;
    assert u[k] == x;
    assert u[..k] == s[..k];
  }

  /** Elements appear in the order in which they first occur in `s`. */
  ghost predicate FirstOccurrenceOrder<T>(r: seq<T>, s: seq<T>)
    requires forall x :: x in r ==> x in s
  {
    forall i, j :: 0 <= i < j < |r| ==> IndexOf(s, r[i]) < IndexOf(s, r[j])
  }

  /** Keeps the first occurrence of every element, dropping later ones: the result of
      appending each element only when it is not yet present. */
  function Dedup<T(==,!new)>(s: seq<T>): (r: seq<T>)
    ensures NoDup(r)
    ensures forall x :: x in r <==> x in s
    ensures FirstOccurrenceOrder(r, s)
    decreases |s|
  {
    if s == [] then []
    else
      var init := s[..|s| - 1];
      var last := s[|s| - 1];
      var d := Dedup(init);
      assert s == init + [last];
      forall x | x in d ensures x in s && IndexOf(s, x) == IndexOf(init, x) {
        IndexOfPrefix(init, [last], x);
      }
      if last in d then d
      else
        assert IndexOf(s, last) == |s| - 1 by {
          assert last !in init;
        }
        d + [last]
  }

  lemma DedupSnoc<T(!new)>(s: seq<T>, x: T)
    ensures Dedup(s + [x]) == if x in Dedup(s) then Dedup(s) else Dedup(s) + [x]
  {
    assert (s + [x])[..|s + [x]| - 1] == s;
  }

  function Flatten<T(!new)>(ss: seq<seq<T>>): (r: seq<T>)
    ensures forall x :: x in r <==> exists k :: 0 <= k < |ss| && x in ss[k]
  {
    if ss == [] then []
    else
      var rest := Flatten(ss[1..]);
      assert forall x :: x in rest <==> exists k :: 1 <= k < |ss| && x in ss[k] by {
        forall x | x in rest ensures exists k :: 1 <= k < |ss| && x in ss[k] {
          var k :| 0 <= k < |ss[1..]| && x in ss[1..][k];
          assert x in ss[k + 1];
        }
      }
      ss[0] + rest
  }

  lemma FlattenSnoc<T(!new)>(ss: seq<seq<T>>, t: seq<T>)
    ensures Flatten(ss + [t]) == Flatten(ss) + t
  {
    if ss == [] {
      assert [t][1..] == [];
    } else {
      assert (ss + [t])[1..] == ss[1..] + [t];
      FlattenSnoc(ss[1..], t);
    }
  }

  function Map<T, U>(f: T -> U, s: seq<T>): (r: seq<U>)
    ensures |r| == |s|
    ensures forall i :: 0 <= i < |s| ==> r[i] == f(s[i])
  {
    seq(|s|, i requires 0 <= i < |s| => f(s[i]))
  }

  /** The elements of `Map(f, s)` are the images of the elements of `s`. */
  lemma MapMembers<T, U>(f: T -> U, s: seq<T>)
    ensures forall x :: x in Map(f, s) <==> exists w :: w in s && x == f(w)
  {
    var m := Map(f, s);
    forall x | x in m ensures exists w :: w in s && x == f(w) {
      var i :| 0 <= i < |m| && m[i] == x;
      assert s[i] in s;
    }
    forall x | exists w :: w in s && x == f(w) ensures x in m {
      var w :| w in s && x == f(w);
      var i :| 0 <= i < |s| && s[i] == w;
      assert m[i] == x;
    }
  }

  function Filter<T(!new)>(p: T -> bool, s: seq<T>): (r: seq<T>)
    ensures forall x :: x in r <==> x in s && p(x)
  {
    if s == [] then []
    else (if p(s[0]) then [s[0]] else []) + Filter(p, s[1..])
  }
}

=== FILE: text.dfy ===
/** String operations the core borrows from Python's `str`: prefix/suffix tests,
    single-character replacement, `split` on one separator, `strip`, the whitespace
    collapsing of `re.sub('\\s+', ' ', _)`, and the reference notion of the words of
    a text. */
module Text {
  import opened Seqs

  /** Python's `str.isspace` (also what `\s` and `strip()` use on `str`). */
  predicate IsSpace(c: char) {
    var n := c as int;
    n == 32 || 9 <= n <= 13 || 28 <= n <= 31 || n == 0x85 || n == 0xA0 || n == 0x1680
    || 0x2000 <= n <= 0x200A || n == 0x2028 || n == 0x2029 || n == 0x202F
    || n == 0x205F || n == 0x3000
  }

  predicate NoSpace(s: string) {
    forall i :: 0 <= i < |s| ==> !IsSpace(s[i])
  }

  predicate AllSpace(s: string) {
    forall i :: 0 <= i < |s| ==> IsSpace(s[i])
  }

  /** The only whitespace character of `s` is the plain blank. */
  predicate OnlyBlanks(s: string) {
    forall i :: 0 <= i < |s| ==> IsSpace(s[i]) ==> s[i] == ' '
  }

  predicate StartsWith(s: string, prefix: string) {
    |prefix| <= |s| && s[..|prefix|] == prefix
  }

  predicate EndsWith(s: string, suffix: string) {
    |suffix| <= |s| && s[|s| - |suffix|..] == suffix
  }

  /** `s.replace(a, b)` for single characters. */
  function Replace(s: string, a: char, b: char): (r: string)
    ensures |r| == |s|
    ensures forall i :: 0 <= i < |s| ==> r[i] == (if s[i] == a then b else s[i])
  {
    if s == [] then [] else [if s[0] == a then b else s[0]] + Replace(s[1..], a, b)
  }

  /** Replacing `a` by `b` is undone by replacing `b` by `a` when `b` did not occur. */
  lemma ReplaceInverse(s: string, a: char, b: char)
    requires b !in s
    ensures Replace(Replace(s, a, b), b, a) == s
  {
    var r := Replace(Replace(s, a, b), b, a);
    assert forall i :: 0 <= i < |s| ==> r[i] == s[i] by {
      forall i | 0 <= i < |s| ensures r[i] == s[i] {
        assert s[i] in s;
      }
    }
  }

  /** Index of the first `c` in `s`, if any. */
  function Find(s: string, c: char): (r: Option<nat>)
    ensures r.Some? ==> r.value < |s| && s[r.value] == c && c !in s[..r.value]
    ensures r.None? ==> c !in s
  {
    if s == [] then None
    else if s[0] == c then Some(0)
    else match Find(s[1..], c)
      case None => None
      case Some(k) =>
        assert s[..k + 1] == [s[0]] + s[1..][..k];
        Some(k + 1)
  }

  /** Glues pieces back together with `sep` in between: `sep.join(pieces)`. */
  function Join(pieces: seq<string>, sep: char): string {
    if pieces == [] then []
    else if |pieces| == 1 then pieces[0]
    else pieces[0] + [sep] + Join(pieces[1..], sep)
  }

  /** `s.split(sep)`: the maximal `sep`-free pieces, always at least one. */
  function Split(s: string, sep: char): (r: seq<string>)
    ensures |r| >= 1
    ensures forall i :: 0 <= i < |r| ==> sep !in r[i]
    ensures Join(r, sep) == s
    decreases |s|
  {
    match Find(s, sep)
    case None => [s]
    case Some(k) =>
      var rest := Split(s[k + 1..], sep);
      assert s == s[..k] + [sep] + s[k + 1..];
      [s[..k]] + rest
  }

  lemma SplitNoSep(s: string, sep: char)
    requires sep !in s
    ensures Split(s, sep) == [s]
  {
  }

  lemma SplitAfterPiece(w: string, sep: char, z: string)
    requires sep !in w
    ensures Split(w + [sep] + z, sep) == [w] + Split(z, sep)
  {
    var s := w + [sep] + z;
    var f := Find(s, sep);
    assert s[|w|] == sep;
    assert s[..|w|] == w;
    assert forall i :: 0 <= i < |w| ==> s[i] == w[i];
    assert s[|w|] in s;
    assert s[|w| + 1..] == z;
  }

  /** The first piece of `s.split(sep)` is the part of `s` before the first `sep`. */
  lemma SplitFirst(s: string, sep: char)
    ensures sep !in Split(s, sep)[0]
    ensures StartsWith(s, Split(s, sep)[0])
    ensures |Split(s, sep)[0]| == |s| || s[|Split(s, sep)[0]|] == sep
  {
  }

  function Last<T>(s: seq<T>): T
    requires |s| >= 1
  {
    s[|s| - 1]
  }

  lemma LastOfCons<T>(x: T, r: seq<T>)
    requires |r| >= 1
    ensures Last([x] + r) == Last(r)
  {
  }

  /** The last piece of `s.split(sep)` is the part of `s` after the last `sep`. */
  lemma {:induction false} SplitLast(s: string, sep: char)
    ensures sep !in Last(Split(s, sep))
    ensures EndsWith(s, Last(Split(s, sep)))
    ensures |Last(Split(s, sep))| == |s| || s[|s| - |Last(Split(s, sep))| - 1] == sep
    decreases |s|
  {
    var f := Find(s, sep);
    if f.Some? {
      var k := f.value;
      SplitLastStep(s, sep, k);
      LastOfCons(s[..k], Split(s[k + 1..], sep));
      SplitLast(s[k + 1..], sep);
      SuffixAfter(s, k, sep, Last(Split(s[k + 1..], sep)));
    } else {
      assert Split(s, sep) == [s];
      assert s[|s| - |s|..] == s;
    }
  }

  /** Past the first separator, the last piece is the last piece of what follows it. */
  lemma SplitLastStep(s: string, sep: char, k: nat)
    requires Find(s, sep) == Some(k)
    ensures k < |s| && s[k] == sep
    ensures Split(s, sep) == [s[..k]] + Split(s[k + 1..], sep)
  {
  }

  /** A suffix of the part after position `k` is a suffix of the whole, and what
      precedes it is still the separator or position `k` itself. */
  lemma SuffixAfter(s: string, k: nat, sep: char, l: string)
    requires k < |s| && s[k] == sep
    requires EndsWith(s[k + 1..], l)
    requires |l| == |s[k + 1..]| || s[k + 1..][|s[k + 1..]| - |l| - 1] == sep
    ensures EndsWith(s, l)
    ensures |l| == |s| || s[|s| - |l| - 1] == sep
  {
    var rest := s[k + 1..];
    assert s[|s| - |l|..] == rest[|rest| - |l|..];
    if |l| < |rest| {
      assert s[|s| - |l| - 1] == rest[|rest| - |l| - 1];
    }
  }

  /** Leading whitespace removed. */
  function SkipSpaces(s: string): (r: string)
    ensures |r| <= |s| && r == s[|s| - |r|..]
    ensures AllSpace(s[..|s| - |r|])
    ensures r == [] || !IsSpace(r[0])
  {
    if s == [] || !IsSpace(s[0]) then s
    else
      var r := SkipSpaces(s[1..]);
      assert s[..|s| - |r|] == [s[0]] + s[1..][..|s[1..]| - |r|];
      r
  }

  /** Trailing whitespace removed. */
  function DropTrailingSpaces(s: string): (r: string)
    ensures |r| <= |s| && r == s[..|r|]
    ensures AllSpace(s[|r|..])
    ensures r == [] || !IsSpace(r[|r| - 1])
  {
    if s == [] || !IsSpace(s[|s| - 1]) then s
    else
      var r := DropTrailingSpaces(s[..|s| - 1]);
      assert s[|r|..] == s[..|s| - 1][|r|..] + [s[|s| - 1]];
      r
  }

  /** `s.strip()`: the middle part of `s` between its leading and trailing whitespace. */
  function Strip(s: string): (r: string)
    ensures exists i, j :: 0 <= i <= j <= |s| && r == s[i..j] && AllSpace(s[..i]) && AllSpace(s[j..])
    ensures r == [] || (!IsSpace(r[0]) && !IsSpace(r[|r| - 1]))
  {
    var t := SkipSpaces(s);
    var r := DropTrailingSpaces(t);
    MiddleOf(s, t, r);
    r
  }

  /** What is left after trimming both ends is a middle slice with whitespace ends cut off. */
  lemma MiddleOf(s: string, t: string, r: string)
    requires |t| <= |s| && t == s[|s| - |t|..] && AllSpace(s[..|s| - |t|]) && (t == [] || !IsSpace(t[0]))
    requires |r| <= |t| && r == t[..|r|] && AllSpace(t[|r|..]) && (r == [] || !IsSpace(r[|r| - 1]))
    ensures exists i, j :: 0 <= i <= j <= |s| && r == s[i..j] && AllSpace(s[..i]) && AllSpace(s[j..])
    ensures r == [] || (!IsSpace(r[0]) && !IsSpace(r[|r| - 1]))
  {
    var i := |s| - |t|;
    var j := i + |r|;
    assert r == s[i..j];
    assert s[j..] == t[|r|..];
    if r != [] {
      assert r[0] == t[0];
    }
  }

  /** `re.sub('\\s+', ' ', s)`: every maximal run of whitespace becomes one blank. */
  function Collapse(s: string): (r: string)
    ensures OnlyBlanks(r)
    ensures s != [] && IsSpace(s[0]) ==> r != [] && r[0] == ' '
    decreases |s|
  {
    if s == [] then []
    else if IsSpace(s[0]) then [' '] + Collapse(SkipSpaces(s))
    else [s[0]] + Collapse(s[1..])
  }

  /** Collapsing leaves no two blanks in a row, keeps the text empty exactly when it
      was, and starts (ends) with a blank exactly when the text starts (ends) with
      whitespace: each maximal whitespace run, leading and trailing ones included,
      becomes exactly one blank. */
  lemma {:induction false} CollapseRuns(s: string)
    ensures var r := Collapse(s);
            && SingleBlanks(r)
            && (r == [] <==> s == [])
            && (r != [] ==> (r[0] == ' ' <==> IsSpace(s[0])))
            && (r != [] ==> (r[|r| - 1] == ' ' <==> IsSpace(s[|s| - 1])))
    decreases |s|
  {
    if s != [] {
      if IsSpace(s[0]) {
        var t := SkipSpaces(s);
        CollapseRuns(t);
        assert t != [] ==> t[|t| - 1] == s[|s| - 1];
        BlankThenRuns(Collapse(t));
      } else {
        CollapseRuns(s[1..]);
        CharThenRuns(s[0], Collapse(s[1..]));
      }
    }
  }

  lemma BlankThenRuns(c: string)
    requires SingleBlanks(c) && (c == [] || c[0] != ' ')
    ensures SingleBlanks([' '] + c)
  {
    var r := [' '] + c;
    forall i | 0 <= i < |r| - 1 ensures r[i] != ' ' || r[i + 1] != ' ' {
      if i > 0 {
        assert r[i] == c[i - 1] && r[i + 1] == c[i];
      }
    }
  }

  lemma CharThenRuns(x: char, c: string)
    requires SingleBlanks(c) && x != ' '
    ensures SingleBlanks([x] + c)
  {
    var r := [x] + c;
    forall i | 0 <= i < |r| - 1 ensures r[i] != ' ' || r[i + 1] != ' ' {
      if i > 0 {
        assert r[i] == c[i - 1] && r[i + 1] == c[i];
      }
    }
  }

  /** No two blanks in a row. */
  predicate SingleBlanks(s: string) {
    forall i :: 0 <= i < |s| - 1 ==> s[i] != ' ' || s[i + 1] != ' '
  }

  /** Length of the leading run of non-whitespace characters. */
  function WordEnd(s: string): (k: nat)
    ensures k <= |s| && NoSpace(s[..k]) && (k == |s| || IsSpace(s[k]))
  {
    if s == [] || IsSpace(s[0]) then 0
    else
      var k := WordEnd(s[1..]);
      assert s[..k + 1] == [s[0]] + s[1..][..k];
      k + 1
  }

  /** The words of `s`: its maximal runs of non-whitespace characters, in order. This is
      the reference the import tokenizer is measured against. */
  function Words(s: string): (r: seq<string>)
    ensures forall i :: 0 <= i < |r| ==> r[i] != [] && NoSpace(r[i])
    decreases |s|
  {
    if s == [] then []
    else if IsSpace(s[0]) then Words(s[1..])
    else
      var k := WordEnd(s);
      [s[..k]] + Words(s[k..])
  }

  lemma {:induction false} WordsOfSpaces(s: string)
    requires AllSpace(s)
    ensures Words(s) == []
    decreases |s|
  {
    if s != [] {
      WordsOfSpaces(s[1..]);
    }
  }

  /** Whitespace after a text does not add words. */
  lemma {:induction false} WordsTrailingSpaces(y: string, z: string)
    requires AllSpace(z)
    ensures Words(y + z) == Words(y)
    decreases |y|
  {
    if y == [] {
      assert y + z == z;
      WordsOfSpaces(z);
    } else if IsSpace(y[0]) {
      assert (y + z)[1..] == y[1..] + z;
      WordsTrailingSpaces(y[1..], z);
    } else {
      var k := WordEnd(y);
      var yz := y + z;
      assert yz[..k] == y[..k];
      assert WordEnd(yz) == k by {
        WordEndIs(yz, k);
      }
      assert yz[k..] == y[k..] + z;
      WordsTrailingSpaces(y[k..], z);
    }
  }

  /** Characterises WordEnd by its defining property. */
  lemma {:induction false} WordEndIs(s: string, k: nat)
    requires k <= |s| && NoSpace(s[..k]) && (k == |s| || IsSpace(s[k]))
    ensures WordEnd(s) == k
    decreases |s|
  {
    if s != [] && !IsSpace(s[0]) {
      assert k > 0;
      assert s[1..][..k - 1] == s[..k][1..];
      WordEndIs(s[1..], k - 1);
    } else if s != [] {
      NoSpaceAt(s, k);
    }
  }

  lemma NoSpaceAt(s: string, k: nat)
    requires k <= |s| && NoSpace(s[..k])
    ensures forall m :: 0 <= m < k ==> !IsSpace(s[m])
  {
    assert forall m :: 0 <= m < k ==> s[..k][m] == s[m];
  }

  /** Whitespace before a text does not add words. */
  lemma {:induction false} WordsLeadingSpaces(x: string, y: string)
    requires AllSpace(x)
    ensures Words(x + y) == Words(y)
    decreases |x|
  {
    if x != [] {
      assert (x + y)[1..] == x[1..] + y;
      WordsLeadingSpaces(x[1..], y);
    } else {
      assert x + y == y;
    }
  }

  /** Stripping does not change the words. */
  lemma StripKeepsWords(s: string)
    ensures Words(Strip(s)) == Words(s)
  {
    var i, j :| 0 <= i <= j <= |s| && Strip(s) == s[i..j] && AllSpace(s[..i]) && AllSpace(s[j..]);
    assert s == s[..i] + (s[i..j] + s[j..]);
    WordsLeadingSpaces(s[..i], s[i..j] + s[j..]);
    WordsTrailingSpaces(s[i..j], s[j..]);
  }

  /** A word followed by nothing or by whitespace is the first word. */
  lemma WordsAfterWord(w: string, y: string)
    requires w != [] && NoSpace(w)
    requires y == [] || IsSpace(y[0])
    ensures Words(w + y) == [w] + Words(y)
  {
    var s := w + y;
    assert s[..|w|] == w;
    WordEndIs(s, |w|);
    assert s[|w|..] == y;
  }

  /** Collapse copies a whitespace-free prefix unchanged. */
  lemma {:induction false} CollapseWord(w: string, y: string)
    requires NoSpace(w)
    ensures Collapse(w + y) == w + Collapse(y)
    decreases |w|
  {
    if w == [] {
      assert w + y == y;
    } else {
      var t := w[1..];
      assert w + y == [w[0]] + (t + y);
      CollapseCons(w[0], t + y);
      CollapseWord(t, y);
      assert [w[0]] + (t + Collapse(y)) == w + Collapse(y);
    }
  }

  /** Collapse copies a leading non-whitespace character. */
  lemma CollapseCons(c: char, y: string)
    requires !IsSpace(c)
    ensures Collapse([c] + y) == [c] + Collapse(y)
  {
    assert ([c] + y)[1..] == y;
  }

  /** Collapsing whitespace does not change the words. */
  lemma {:induction false} CollapseKeepsWords(s: string)
    ensures Words(Collapse(s)) == Words(s)
    decreases |s|
  {
    if s == [] {
    } else if IsSpace(s[0]) {
      var t := SkipSpaces(s);
      CollapseKeepsWords(t);
      assert s == s[..|s| - |t|] + t;
      WordsLeadingSpaces(s[..|s| - |t|], t);
      assert ([' '] + Collapse(t))[1..] == Collapse(t);
    } else {
      var k := WordEnd(s);
      assert s == s[..k] + s[k..];
      CollapseWord(s[..k], s[k..]);
      CollapseKeepsWords(s[k..]);
      WordsAfterWord(s[..k], Collapse(s[k..]));
    }
  }

  function NonEmpty(s: string): bool { s != [] }

  /** For a text whose only whitespace is the blank, splitting on blanks and dropping
      the empty pieces yields exactly its words. */
  lemma {:induction false} SplitBlanksIsWords(y: string)
    requires OnlyBlanks(y)
    ensures Filter(NonEmpty, Split(y, ' ')) == Words(y)
    decreases |y|
  {
    if y == [] {
    } else if y[0] == ' ' {
      OnlyBlanksSlice(y, 1, |y|);
      SplitBlanksIsWords(y[1..]);
      SplitAfterPiece([], ' ', y[1..]);
      assert [] + [' '] + y[1..] == y;
      assert Filter(NonEmpty, Split(y, ' ')) == Filter(NonEmpty, Split(y[1..], ' '));
    } else {
      var k := WordEnd(y);
      if k == |y| {
        assert y[..k] == y;
        SplitNoSep(y, ' ');
        assert y[k..] == [];
      } else {
        OnlyBlanksSlice(y, k + 1, |y|);
        SplitBlanksIsWords(y[k + 1..]);
        assert IsSpace(y[k]);
        SplitBlanksStep(y, k);
      }
    }
  }

  /** One step of the previous lemma: a word, a blank, and the rest. */
  lemma SplitBlanksStep(y: string, k: nat)
    requires y != [] && !IsSpace(y[0])
    requires k == WordEnd(y) && k < |y| && y[k] == ' '
    requires Filter(NonEmpty, Split(y[k + 1..], ' ')) == Words(y[k + 1..])
    ensures Filter(NonEmpty, Split(y, ' ')) == Words(y)
  {
    WordsOfWordBlank(y, k);
    PiecesOfWordBlank(y, k);
  }

  lemma PiecesOfWordBlank(y: string, k: nat)
    requires 0 < k < |y| && NoSpace(y[..k]) && y[k] == ' '
    ensures Filter(NonEmpty, Split(y, ' ')) == [y[..k]] + Filter(NonEmpty, Split(y[k + 1..], ' '))
  {
    var w, z := y[..k], y[k + 1..];
    NoBlankIn(w);
    WordBlankRest(y, k);
    SplitAfterPiece(w, ' ', z);
    FilterKeep(NonEmpty, w, Split(z, ' '));
  }

  lemma NoBlankIn(w: string)
    requires NoSpace(w)
    ensures ' ' !in w
  {
    forall m | 0 <= m < |w|
      ensures w[m] != ' '
    {
      assert !IsSpace(w[m]);
    }
  }

  lemma WordBlankRest(y: string, k: nat)
    requires k < |y| && y[k] == ' '
    ensures y == y[..k] + [' '] + y[k + 1..]
  {
  }

  lemma FilterKeep<T(!new)>(p: T -> bool, a: T, s: seq<T>)
    requires p(a)
    ensures Filter(p, [a] + s) == [a] + Filter(p, s)
  {
    assert ([a] + s)[1..] == s;
  }

  lemma WordsOfWordBlank(y: string, k: nat)
    requires y != [] && !IsSpace(y[0]) && k == WordEnd(y) && k < |y| && y[k] == ' '
    ensures 0 < k && NoSpace(y[..k])
    ensures Words(y) == [y[..k]] + Words(y[k + 1..])
  {
    var t := y[k..];
    assert t[1..] == y[k + 1..];
  }

  /** The tokenizer of the fast import path: collapse whitespace, strip, split on
      blanks, drop empty pieces. The tokens are exactly the words of the text: no
      token is empty or holds whitespace, and no word is lost, split or fused. */
  function Tokens(s: string): (r: seq<string>)
    ensures r == Words(s)
  {
    var c := Collapse(s);
    StripOnlyBlanks(c);
    SplitBlanksIsWords(Strip(c));
    StripKeepsWords(c);
    CollapseKeepsWords(s);
    Filter(NonEmpty, Split(Strip(c), ' '))
  }

  lemma StripOnlyBlanks(c: string)
    requires OnlyBlanks(c)
    ensures OnlyBlanks(Strip(c))
  {
    var t := Strip(c);
    var i, j :| 0 <= i <= j <= |c| && t == c[i..j] && AllSpace(c[..i]) && AllSpace(c[j..]);
    OnlyBlanksSlice(c, i, j);
  }

  lemma OnlyBlanksSlice(c: string, i: nat, j: nat)
    requires OnlyBlanks(c) && i <= j <= |c|
    ensures OnlyBlanks(c[i..j])
  {
    forall m | 0 <= m < j - i
      ensures IsSpace(c[i..j][m]) ==> c[i..j][m] == ' '
    {
      assert c[i..j][m] == c[i + m];
    }
  }

  /** Joining texts with a blank never fuses two words. */
  lemma {:induction false} WordsOfJoin(a: string, b: string)
    ensures Words(a + [' '] + b) == Words(a) + Words(b)
    decreases |a|
  {
    if a == [] {
      assert a + [' '] + b == [' '] + b;
      assert ([' '] + b)[1..] == b;
    } else if IsSpace(a[0]) {
      assert (a + [' '] + b)[1..] == a[1..] + [' '] + b;
      WordsOfJoin(a[1..], b);
    } else {
      var k := WordEnd(a);
      var s := a + [' '] + b;
      assert s[..k] == a[..k];
      WordEndIs(s, k);
      assert s[k..] == a[k..] + [' '] + b;
      WordsOfJoin(a[k..], b);
    }
  }
}
